=== FILE: README.md ===
# Remittance core: a Dafny model

This project models the money-movement core of a Spring remittance service. That core is:

- the account aggregate and its withdraw and deposit;
- the daily limit settings and the per-day usage counters;
- the PENDING to SUCCESS ledger row;
- the fee policy engine: a night policy and a default policy, and the finder that picks between them;
- the three `@Transactional` use cases, deposit, withdraw and transfer;
- the older `AccountService`, which duplicates them and also owns account create, read and delete.

Each operation is a pure function from a `Store.State` to a result and a new state. The state holds:

- the account, limit-setting, daily-usage and ledger tables, as maps;
- the Redis idempotency keys, as a set;
- the history of pessimistic row locks, in the order they were taken.

A failing operation rolls the tables back. The Redis key it set stays set, and so do the locks it took.

Module layout, following the source packages:

| file | module | source |
|---|---|---|
| errors.dfy | `Errors` | ErrorType, plus the two untyped failures the code can raise |
| accounts.dfy | `Accounts` | entity/Account.java |
| limit_settings.dfy | `LimitSettings` | entity/AccountLimitSetting.java |
| daily_usage.dfy | `DailyUsage` | entity/AccountDailyLimitUsage.java and `getOrCreateUsage` |
| ledger.dfy | `Ledger`, `Transactions`, `AccountTransactions` | entity/Transaction.java and entity/AccountTransaction.java |
| fees.dfy | `Fees` | usecase/policy |
| store.dfy | `Store` | the repositories and TransactionRedisRepository, as maps and a set |
| deposit_use_case.dfy, withdraw_use_case.dfy, transfer_use_case.dfy | one module each | usecase |
| account_service.dfy | `AccountService` | service/AccountService.java |
| runs.dfy | `Runs` | sequences of requests as the controller dispatches them |

Four things the code does not do:

- No operation checks that an account is active. The error types have no "not active" case, and closing an account does not stop withdraw or deposit (`Accounts.OutcomeIgnoresStatus`).
- A transfer writes one ledger row, the source's, with the target as counterparty. It does not write two legs.
- The idempotency key is the request id alone, not the pair (account, request id).
- A transfer does not move money. See Findings.

## Model

| member | source | states |
|---|---|---|
| Accounts.Withdraw | src/main/java/com/sw/remittanceservice/account/entity/Account.java:51-62 | An amount of zero or less fails with INVALID_REQUEST before the balance is looked at. An amount above the balance fails with INSUFFICIENT_BALANCE. The call succeeds exactly when 0 < amount <= balance. The new value has the balance less the amount, which is never negative, and keeps id, number, status and creation time. |
| Accounts.Deposit | src/main/java/com/sw/remittanceservice/account/entity/Account.java:64-71 | The call succeeds exactly when the amount is positive, and otherwise fails with INVALID_REQUEST. The new value holds balance + amount, with the same identity. |
| Accounts.Create | src/main/java/com/sw/remittanceservice/account/entity/Account.java:74-77 | A new account is unsaved, ACTIVE, and has balance 0. |
| Accounts.Close | src/main/java/com/sw/remittanceservice/account/entity/Account.java:81-84 | The status becomes CLOSED. Balance, id and number are kept. |
| Accounts.OutcomeIgnoresStatus | src/main/java/com/sw/remittanceservice/account/entity/Account.java:51-71 | Success and failure of withdraw and deposit depend only on amount and balance, never on the status. |
| Accounts.DepositWithdrawRoundTrip | src/main/java/com/sw/remittanceservice/account/entity/Account.java:51-71 | Withdrawing what was just deposited restores the account (apart from updatedAt), and so does the reverse. |
| Accounts.WithdrawWholeBalance | src/main/java/com/sw/remittanceservice/account/entity/Account.java:57-61 | Withdrawing exactly the balance succeeds and leaves 0. |
| Accounts.CloseIdempotent | src/main/java/com/sw/remittanceservice/account/entity/Account.java:81-84 | Closing twice equals closing once. |
| LimitSettings.DefaultOf | src/main/java/com/sw/remittanceservice/account/entity/AccountLimitSetting.java:46-56 | The defaults are 1,000,000 a day for withdrawals and 3,000,000 a day for transfers, for the given account. |
| LimitSettings.Change | src/main/java/com/sw/remittanceservice/account/entity/AccountLimitSetting.java:58-62 | Both caps are overwritten and the owner is kept. |
| LimitSettings.ChangeLastWins | src/main/java/com/sw/remittanceservice/account/entity/AccountLimitSetting.java:58-62 | The last change wins. Changing a setting to its current caps is a no-op. |
| DailyUsage.Init | src/main/java/com/sw/remittanceservice/account/entity/AccountDailyLimitUsage.java:56-59 | A new row has both counters at 0, for the given account and day. |
| DailyUsage.AddWithdrawUsed | src/main/java/com/sw/remittanceservice/account/entity/AccountDailyLimitUsage.java:61-64 | The withdrawal counter grows by exactly the amount. The transfer counter, account and day stay unchanged. |
| DailyUsage.AddTransferUsed | src/main/java/com/sw/remittanceservice/account/entity/AccountDailyLimitUsage.java:66-69 | The transfer counter grows by exactly the amount. The withdrawal counter, account and day stay unchanged. |
| DailyUsage.CountersMonotone | src/main/java/com/sw/remittanceservice/account/entity/AccountDailyLimitUsage.java:61-69 | With non-negative amounts the counters never decrease. The two counters commute, and successive additions add up. |
| DailyUsage.AtMostOneRowPerDay | src/main/java/com/sw/remittanceservice/account/entity/AccountDailyLimitUsage.java:18-23 | In a table keyed by (accountId, limitDate), two rows for the same account and day are the same row. |
| DailyUsage.GetOrCreate | src/main/java/com/sw/remittanceservice/account/usecase/WithdrawUseCase.java:67-70 | It returns the stored row for the day and leaves the table alone, or it inserts and returns a zeroed row. Either way the table stays keyed by day. |
| Fees.PercentOfIsFloor | src/main/java/com/sw/remittanceservice/account/usecase/policy/DefaultFeeCalculator.java:27-30 | For a non-negative amount the fee is the floor of amount * rate: 0 <= fee, and fee <= amount when the rate is at most 100%. |
| Fees.PercentOfNegative | src/main/java/com/sw/remittanceservice/account/usecase/policy/DefaultFeeCalculator.java:27-30 | For a negative amount the fee truncates toward zero, like the long cast: amount <= fee <= 0. |
| Fees.IsNightIsSevenHourWindow | src/main/java/com/sw/remittanceservice/account/usecase/policy/NightFeeCalculator.java:15-16 | isNight holds exactly in the seven hours that follow 23:00, with wrap-around at midnight. |
| Fees.NightBoundaries | src/main/java/com/sw/remittanceservice/account/usecase/policy/NightFeeCalculator.java:34-37 | 23:00 and 05:59 are night. 06:00 and 22:59 are not. |
| Fees.NightCalculate | src/main/java/com/sw/remittanceservice/account/usecase/policy/NightFeeCalculator.java:29-32 | The response is tagged NIGHT at 2%, with fee = floor(amount / 50) for a non-negative amount. |
| Fees.DefaultCalculate | src/main/java/com/sw/remittanceservice/account/usecase/policy/DefaultFeeCalculator.java:27-30 | The response is tagged DEFAULT at 1%, with fee = floor(amount / 100), between 0 and the amount. |
| Fees.FeeExamples | src/main/java/com/sw/remittanceservice/account/usecase/policy/DefaultFeeCalculator.java:27-30 | Worked values: 1000 gives 10, 5500 gives 55, 99 gives 0, and 100000 at night gives 2000. |
| Fees.NightIgnoresRequest | src/main/java/com/sw/remittanceservice/account/usecase/policy/NightFeeCalculator.java:24-26 | Whether the night policy applies depends on the wall clock alone. The default policy always applies. |
| Fees.ScanSpec | src/main/java/com/sw/remittanceservice/account/usecase/policy/FeeCalculatorFinder.java:24-37 | From any position, the loop returns, in this order of preference: the first applicable non-default, the last DEFAULT, the remembered DEFAULT. Failing all three it returns CALCULATOR_NOT_FOUND. |
| Fees.CalculateSpec | src/main/java/com/sw/remittanceservice/account/usecase/policy/FeeCalculatorFinder.java:21-38 | The first applicable non-default calculator wins. Otherwise the last registered DEFAULT is used. The call fails with CALCULATOR_NOT_FOUND exactly when nothing applies and no DEFAULT is registered. |
| Fees.IgnoresCalculatorsAfterFirstApplicable | src/main/java/com/sw/remittanceservice/account/usecase/policy/FeeCalculatorFinder.java:29-31 | Calculators after the first applicable one never affect the result. |
| Fees.DefaultNeverAsked | src/main/java/com/sw/remittanceservice/account/usecase/policy/FeeCalculatorFinder.java:25-28 | A DEFAULT calculator's applicable() is never consulted. |
| Fees.StandardRegistry | src/main/java/com/sw/remittanceservice/account/usecase/policy/FeeCalculatorFinder.java:21-38 | With the night and default policies registered, in either order, the result is NIGHT between 23:00 and 06:00 and DEFAULT otherwise. |
| Transactions.WithdrawPending | src/main/java/com/sw/remittanceservice/account/entity/Transaction.java:80-100 | A fresh PENDING WITHDRAW row: fee 0, balance 0, no counterparty. |
| Transactions.DepositPending | src/main/java/com/sw/remittanceservice/account/entity/Transaction.java:102-122 | A fresh PENDING DEPOSIT row: fee 0, balance 0, no counterparty. |
| Transactions.TransferPending | src/main/java/com/sw/remittanceservice/account/entity/Transaction.java:124-145 | A fresh PENDING TRANSFER row whose counterparty is the target. |
| Transactions.Success | src/main/java/com/sw/remittanceservice/account/entity/Transaction.java:147-151 | The row completes to SUCCESS with the balance snapshot and fee 0. Owner, id, kind, amount and counterparty are kept. |
| Transactions.SuccessWithFee | src/main/java/com/sw/remittanceservice/account/entity/Transaction.java:153-160 | The row completes with the snapshot and the fee, and the policy tag and rate are copied from the fee response. |
| Transactions.OnlyTransferHasTarget | src/main/java/com/sw/remittanceservice/account/entity/Transaction.java:80-145 | Only the transfer factory names a counterparty. |
| Transactions.SuccessLastWins | src/main/java/com/sw/remittanceservice/account/entity/Transaction.java:147-160 | Completing twice equals completing once with the later values. |
| AccountTransactions.WithdrawPending | src/main/java/com/sw/remittanceservice/account/entity/AccountTransaction.java:65-82 | A fresh PENDING WITHDRAW row with the given owner, request id and amount: fee 0, balance 0, no fee policy, and no counterparty. |
| AccountTransactions.DepositPending | src/main/java/com/sw/remittanceservice/account/entity/AccountTransaction.java:84-101 | A fresh PENDING DEPOSIT row with the given owner, request id and amount: fee 0, balance 0, no fee policy, and no counterparty. |
| AccountTransactions.TransferPending | src/main/java/com/sw/remittanceservice/account/entity/AccountTransaction.java:105-123 | A fresh PENDING TRANSFER row with the given owner, request id and amount: fee 0, balance 0, no fee policy, and the target as counterparty. |
| AccountTransactions.Success | src/main/java/com/sw/remittanceservice/account/entity/AccountTransaction.java:126-130 | The row completes to SUCCESS with exactly the given snapshot and fee, and the fee policy is untouched. |
| AccountTransactions.AgreesWithTransaction | src/main/java/com/sw/remittanceservice/account/entity/AccountTransaction.java:126-130 | Completing with fee 0 yields the same row as Transaction's one-argument success with that balance. |
| AccountTransactions.SuccessWithFeeExtends | src/main/java/com/sw/remittanceservice/account/entity/Transaction.java:153-160 | Transaction's three-argument success is this two-argument success plus the policy tag and rate copied from the fee response. |
| Store.GuardAdmitsOnce | src/main/java/com/sw/remittanceservice/account/repository/TransactionRedisRepository.java:23-28 | The set-if-absent reports "not locked" exactly for a new key. Right after, the key reports locked, and a repeat changes nothing. |
| Store.Expire | src/main/java/com/sw/remittanceservice/account/repository/TransactionRedisRepository.java:23-28 | Once a key's TTL runs out, the guard admits it again, and no table changes. |
| Store.FindLocked | src/main/java/com/sw/remittanceservice/account/repository/AccountRepository.java:15-16 | The locking read returns the stored row. It records a lock only when the row exists. |
| Store.Rollback | src/main/java/com/sw/remittanceservice/account/usecase/DepositUseCase.java:23-24 | A failed transactional call returns the failure. The tables are as at entry, and the Redis keys and lock history are as at the failure. |
| Store.UnlockedKeyHasNoRecord | src/main/java/com/sw/remittanceservice/account/entity/AccountTransaction.java:31-33 | Under the invariant, a request id not in Redis has no ledger row, so the unique-key failure cannot occur on a first arrival. |
| Store.RollbackKeepsInv | src/main/java/com/sw/remittanceservice/account/usecase/WithdrawUseCase.java:31-32 | A rollback preserves the table invariant. |
| DepositUseCase.Execute | src/main/java/com/sw/remittanceservice/account/usecase/DepositUseCase.java:23-47 | A replay returns the stored or the fresh PENDING row and changes nothing. On a first arrival the error order is ACCOUNT_NOT_FOUND, then INVALID_REQUEST. Success holds exactly when the account exists and the amount is positive, and then only that balance grows, by the amount, and a completed row with the new balance and fee 0 is added. At most one lock is taken, and the invariant is preserved. |
| WithdrawUseCase.Execute | src/main/java/com/sw/remittanceservice/account/usecase/WithdrawUseCase.java:31-65 | A missing setting fails before any lock. The error order is then ACCOUNT_NOT_FOUND, EXCEED_DAILY_WITHDRAW_LIMIT (the cap is inclusive), INVALID_REQUEST, INSUFFICIENT_BALANCE. On success the balance falls by the amount, today's withdrawal counter grows by the amount and stays within the cap, the transfer counter is unchanged, and a completed row with fee 0 is added. The invariant is preserved. |
| TransferUseCase.FeeFor | src/main/java/com/sw/remittanceservice/account/usecase/TransferUseCase.java:72-74 | The fee finder's only failure is CALCULATOR_NOT_FOUND. |
| TransferUseCase.Checks | src/main/java/com/sw/remittanceservice/account/usecase/TransferUseCase.java:66-80 | After the locks the checks run in this order: the inclusive daily transfer cap (the fee does not count against it), the fee finder, then the aggregate's checks on amount + fee and on amount. They pass exactly when CanTransfer holds. The debited account then holds balance - amount - fee and the credited one balance + amount. |
| TransferUseCase.ChecksSeeOnlyData | src/main/java/com/sw/remittanceservice/account/usecase/TransferUseCase.java:60-80 | The checks read only the tables: two states with the same data give the same verdict, whatever their Redis keys and lock history. |
| TransferUseCase.Settle | src/main/java/com/sw/remittanceservice/account/usecase/TransferUseCase.java:63-88 | A failed check rolls back. A passed one raises only today's transfer counter, by the amount, and adds a completed row carrying the finder's fee, policy and rate. As written, the accounts saved are the unchanged locked reads. |
| TransferUseCase.SettleKeepsInv | src/main/java/com/sw/remittanceservice/account/usecase/TransferUseCase.java:63-88 | Settling preserves the table invariant. |
| TransferUseCase.Execute | src/main/java/com/sw/remittanceservice/account/usecase/TransferUseCase.java:38-89 | A self-transfer fails with SAME_ACCOUNT_TRANSFER before Redis is touched. A replay changes nothing. A missing setting fails before any lock. A missing account gives the untyped not-found failure. Locks are taken min id then max id, so the lock history only ever ascends. Success holds exactly when CanTransfer holds. As written, balances and balanceAfter are those read under lock. The invariant is preserved. |
| TransferUseCase.OppositeTransfersLockAlike | src/main/java/com/sw/remittanceservice/account/usecase/TransferUseCase.java:57-61 | Transfers a to b and b to a take their locks in the same order. |
| TransferUseCase.AsWrittenMovesNoMoney | src/main/java/com/sw/remittanceservice/account/usecase/TransferUseCase.java:79-87 | 100000 from an account holding 500000 succeeds with fee 1000, yet both balances stay as they were. |
| TransferUseCase.SavedTransferConserves | src/main/java/com/sw/remittanceservice/account/usecase/TransferUseCase.java:79-85 | With the computed accounts saved, the source loses amount + fee, the target gains the amount, the pair's total falls by exactly the fee, and no other account changes. |
| TransferUseCase.SavedMovesMoney | src/main/java/com/sw/remittanceservice/account/usecase/TransferUseCase.java:79-85 | With the computed accounts saved, the same request leaves 399000 and 100000. |
| AccountService.Read | src/main/java/com/sw/remittanceservice/account/service/AccountService.java:33-41 | ACCOUNT_NOT_FOUND comes before the setting lookup, and a missing setting gives ACCOUNT_LIMIT_SETTING_NOT_FOUND. Success holds exactly when both exist, and the response copies the account and both caps. |
| AccountService.Create | src/main/java/com/sw/remittanceservice/account/service/AccountService.java:43-55 | The account row saved under the next identity has the given number, balance 0 and ACTIVE, and its setting row has caps 1,000,000 and 3,000,000. The response is read back from those two rows. Every other row is kept. Under the invariant the id is new and the invariant survives. |
| AccountService.Delete | src/main/java/com/sw/remittanceservice/account/service/AccountService.java:57-63 | The call fails with ACCOUNT_NOT_FOUND exactly when the row is missing. Otherwise only that row changes, to CLOSED, with its balance kept. |
| AccountService.DeleteIdempotent | src/main/java/com/sw/remittanceservice/account/service/AccountService.java:57-63 | Deleting twice leaves the same state as deleting once. |
| AccountService.Deposit | src/main/java/com/sw/remittanceservice/account/service/AccountService.java:65-90 | The service's own copy of the deposit steps has the deposit use case's outcome, result and state, on every input. |
| AccountService.Withdraw | src/main/java/com/sw/remittanceservice/account/service/AccountService.java:113-117 | The daily cap is inclusive: EXCEED_DAILY_WITHDRAW_LIMIT occurs exactly when used + amount exceeds it. A success raises the withdrawal counter by the amount and stays within the cap. |
| AccountService.Transfer | src/main/java/com/sw/remittanceservice/account/service/AccountService.java:133-173 | A self-transfer is refused. The fee is 1% truncated. A replay answers with the stored or pending row's values and no rate or balance. The setting, the two locked reads (min id then max id) and the inclusive cap are checked in order. Success holds exactly when the source covers amount + fee. The database is never changed, and the response reports the unchanged source balance and a fee of 1. |
| AccountService.RecordsFeeOfOne | src/main/java/com/sw/remittanceservice/account/service/AccountService.java:138-171 | 100000 is checked against a debit of 101000, yet the response reports fee 1. |
| AccountService.RecordsComputedFee | src/main/java/com/sw/remittanceservice/account/service/AccountService.java:138-171 | Recording the computed fee, the same request reports 1000. |
| AccountService.RetryReportsPending | src/main/java/com/sw/remittanceservice/account/service/AccountService.java:141-145 | No row is ever saved, so a retry of a successful transfer reports PENDING and changes nothing. |
| Runs.Apply | src/main/java/com/sw/remittanceservice/account/controller/AccountController.java:25-62 | Serving one request, with the transfer as written or with its balances saved, preserves the invariant, never alters or drops a ledger row, and never releases a Redis key. A request whose id is already held changes nothing, and a money request leaves its id held. |
| Runs.RunPreservesInv | src/main/java/com/sw/remittanceservice/account/controller/AccountController.java:25-62 | Every request sequence from a well-formed state ends in a well-formed state: unique keys, non-negative balances and counters, only completed ledger rows. |
| Runs.RunKeepsRecords | src/main/java/com/sw/remittanceservice/account/usecase/WithdrawUseCase.java:36-42 | Over any run the ledger is append-only and the Redis keys only grow. |
| Runs.LaterRepeatsChangeNothing | src/main/java/com/sw/remittanceservice/account/repository/TransactionRedisRepository.java:23-28 | While its Redis key is held, every later request carrying an id, anywhere in a run, changes nothing: the id executes at most once until the key expires. |
| Runs.WithdrawRetryDebitsOnce | src/main/java/com/sw/remittanceservice/account/usecase/WithdrawUseCase.java:36-40 | While its Redis key is held, a retried withdrawal changes nothing and debits nothing more. It returns the first result when that succeeded, and otherwise the stored or fresh PENDING row. |
| Runs.FailedRequestReplaysPending | src/main/java/com/sw/remittanceservice/account/usecase/WithdrawUseCase.java:36-45 | While its key is held, a withdrawal that failed on first arrival cannot succeed under the same id: every retry reports the fresh PENDING row. |
| Runs.FailedRequestRerunsAfterExpiry | src/main/java/com/sw/remittanceservice/account/repository/TransactionRedisRepository.java:23-28 | Whatever requests run in between, once the key of a failed withdrawal expires the request is a first arrival again, and a retry succeeds exactly when the account can by then cover it. |
| Runs.NoRowWhileHeld | src/main/java/com/sw/remittanceservice/account/usecase/WithdrawUseCase.java:36-45 | While an id's key is held and it has no ledger row, no run of requests adds one. |
| Runs.ExpiredRetrySucceeds | src/main/java/com/sw/remittanceservice/account/usecase/WithdrawUseCase.java:36-45 | A withdrawal of 100 from an empty account fails. After a deposit of 100 and the key's expiry, the same request succeeds. |

## Left out

- HTTP, JPA and Redis mechanics are left out. Controllers, DTO mapping beyond TransferResponse, the ErrorCode to HTTP status mapping and GlobalExceptionHandler are plumbing. The repositories become maps and the Redis keys a set.
- Redis key expiry is modelled only as the separate step `Store.Expire`. `isLocked` sets its key with a one-second TTL, but no operation and no run expires a key. After expiry, a retry of a completed request would hit the unique `transaction_id` column. That unique-key failure is modelled (`DuplicateKey`) but cannot arise under the invariant.
- `tryLock(transactionId, 1)`, which DepositUseCase.java:28 and TransferUseCase.java:46 call, is not declared in TransactionRedisRepository.java, which declares only `isLocked`. It is modelled as the negation of `isLocked` (`Store.IsLocked`): it sets the key with the same TTL and returns true exactly on a first arrival.
- Runs.LaterRepeatsChangeNothing: holds only while the Redis key lives. Runs never expire keys. After the one-second TTL a failed id re-executes (`Runs.FailedRequestRerunsAfterExpiry`).
- Runs.FailedRequestReplaysPending: holds only while the Redis key lives. After the TTL a failed withdrawal re-runs and can succeed (`Runs.ExpiredRetrySucceeds`).
- Runs.RunKeepsRecords: "Redis keys only grow" holds because runs contain no expiry step.
- Concurrency is left out. Row locks are modelled only as the order in which they are taken (`lockTrace`). Blocking, deadlock and interleavings are not modelled.
- Clock readings are parameters. `LocalDate.now()`, `LocalTime.now()` and `LocalDateTime.now()` become a `Clock` parameter. Time of day is in minutes. Timestamps on settings, usage rows and ledger rows are not kept.
- Account numbers are a parameter. `UUID.randomUUID()` becomes the `accountNo` argument of `AccountService.Create`, and its uniqueness is not modelled.
- Fees.PercentOf: the double arithmetic `(long) (amount * 0.01)` is modelled as exact integer percentages truncated toward zero. Rounding error in the double product is not modelled, and the rate is stored as a whole percentage.
- 64-bit wrap-around of `Long` balances, counters and fees is not modelled. Integers are unbounded.
- Null amounts (`amount == null` in Account.java) cannot be expressed. Only the `amount <= 0` branch is modelled.
- AccountService.Transfer: the read-only transaction is modelled as writing nothing back. That covers the usage row created by `getOrCreateUsage` and the two `save` calls. Whether an identity-generated insert escapes a read-only transaction depends on the driver, and the model assumes it does not. On a driver that enforces read-only mode, that insert or the `FOR UPDATE` reads would instead throw, and the service transfer would fail where the model reports success with the data unchanged.
- `TransferResponse.of` is not declared in TransferResponse.java. Its result is modelled from its arguments: from, to, amount, fee and status, with no rate and no balance.
- AccountService.Withdraw: lines 92-126 of AccountService.java repeat the withdraw use case step for step, so the use case's definition is reused rather than written twice. Its contract restates only the daily-limit properties.
- `TransactionService`, pagination and `TransactionRepository`'s native queries are not part of this model.
- `Transaction.java` and `AccountTransaction.java` come from different revisions. One ledger datatype carries the union of their columns. `DepositUseCase.java:44` calls the one-argument `success` and `TransferUseCase.java:87` calls the three-argument `success`; neither overload exists on AccountTransaction, so both take the meaning they have in `Transaction.java:147-160`.
- The bare `orElseThrow()` on the locked reads in the transfer is modelled as the untyped failure `NoSuchElement`.

## Findings

| source | as written | input that shows it | evidently intended | confidence | as-written member | corrected member |
|---|---|---|---|---|---|---|
| src/main/java/com/sw/remittanceservice/account/usecase/TransferUseCase.java:79-85 | The accounts returned by `withdraw` and `deposit` are discarded. The unchanged locked reads are saved, and balanceAfter is the old source balance. | Account 1 holds 500000 and account 2 holds 0, with default limits. At 12:00, transfer 100000: the call succeeds with fee 1000, and the balances stay 500000 and 0. | The source is debited amount + fee, the target is credited the amount, and the pair's total falls by the fee (399000 and 100000). | high, not executed | TransferUseCase.AsWrittenMovesNoMoney | TransferUseCase.SavedTransferConserves |
| src/main/java/com/sw/remittanceservice/account/service/AccountService.java:171 | The completed row records a fee of 1, whatever fee was computed and checked. | The same accounts, transfer 100000: 101000 is checked against the balance, but the response says fee 1. | The fee computed at line 138 is recorded (1000). | high, not executed | AccountService.RecordsFeeOfOne | AccountService.RecordsComputedFee |

`TransferUseCase.Execute` and `AccountService.Transfer` take a flag that selects the behaviour. With `saveBalances` set, the transfer saves the debited and credited accounts. With `recordComputedFee` set, the service records the fee it computed. `Runs.Apply` and `Runs.Run` pass `saveBalances` through, and every lemma about runs holds for both settings.

=== FILE: account_service.dfy ===
/** AccountService (account/service/AccountService.java): account lifecycle
    and the older copy of the money-movement engine. The class runs under a
    read-only transaction unless a method declares its own; its transfer
    does not, so nothing that transfer does reaches the database. */
module AccountService {
  import opened Errors
  import A = Accounts
  import L = LimitSettings
  import U = DailyUsage
  import F = Fees
  import opened Ledger
  import AT = AccountTransactions
  import opened Store
  import DepositUseCase
  import WithdrawUseCase
  import TransferUseCase

  /** AccountResponse: the account row together with its two caps. */
  datatype AccountResponse = AccountResponse(
    accountId: A.AccountId,
    accountNo: string,
    balance: int,
    status: A.AccountStatus,
    dailyWithdrawLimit: int,
    dailyTransferLimit: int)

  /** TransferResponse. `From` copies a ledger row; the replay path of the
      service builds one from loose values, with no rate and no balance. */
  datatype TransferResponse = TransferResponse(
    fromAccountId: A.AccountId,
    toAccountId: Option<A.AccountId>,
    amount: int,
    fee: int,
    feeRatePercent: Option<nat>,
    balanceAfter: Option<int>,
    status: TransactionStatus)

  function From(t: Transaction): TransferResponse {
    TransferResponse(t.accountId, t.target, t.amount, t.fee, t.feeRatePercent, Some(t.balanceAfter), t.status)
  }

  function Of(from: A.AccountId, to: A.AccountId, amount: int, fee: int, status: TransactionStatus)
    : TransferResponse {
    TransferResponse(from, Some(to), amount, fee, None, None, status)
  }

  function ResponseOf(a: A.Account, setting: L.AccountLimitSetting): AccountResponse {
    AccountResponse(a.accountId, a.accountNo, a.balance, a.status,
                    setting.dailyWithdrawLimit, setting.dailyTransferLimit)
  }

  /** read: the account is looked up first; its setting is then found by the
      stored row's own id. Nothing is written. */
  function Read(s: State, accountId: A.AccountId): (r: Result<AccountResponse>)
    ensures accountId !in s.accounts ==> r == Err(Core(AccountNotFound))
    ensures accountId in s.accounts && s.accounts[accountId].accountId !in s.settings ==>
              r == Err(Core(AccountLimitSettingNotFound))
    ensures r.Ok? <==> accountId in s.accounts && s.accounts[accountId].accountId in s.settings
    ensures r.Ok? ==>
              var a := s.accounts[accountId];
              var setting := s.settings[a.accountId];
              && r.value.accountId == a.accountId && r.value.accountNo == a.accountNo
              && r.value.balance == a.balance && r.value.status == a.status
              && r.value.dailyWithdrawLimit == setting.dailyWithdrawLimit
              && r.value.dailyTransferLimit == setting.dailyTransferLimit
  {
    if accountId !in s.accounts then Err(Core(AccountNotFound))
    else
      var a := s.accounts[accountId];
      if a.accountId !in s.settings then Err(Core(AccountLimitSettingNotFound))
      else Ok(ResponseOf(a, s.settings[a.accountId]))
  }

  /** create: the account number is a random UUID, taken here as a
      parameter; the identity column hands out the next id. */
  function Create(s: State, accountNo: string, clock: Clock): (r: Step<AccountResponse>)
    ensures r.result.Ok?
    ensures var id := s.nextAccountId;
            && r.result.value.accountId == id && r.result.value.accountNo == accountNo
            && r.result.value.balance == 0 && r.result.value.status == A.Active
            && r.result.value.dailyWithdrawLimit == 1_000_000
            && r.result.value.dailyTransferLimit == 3_000_000
            && r.state.accounts.Keys == s.accounts.Keys + {id}
            && r.state.settings.Keys == s.settings.Keys + {id}
            && (forall other :: other in s.accounts && other != id ==> r.state.accounts[other] == s.accounts[other])
            && (forall other :: other in s.settings && other != id ==> r.state.settings[other] == s.settings[other])
    // The rows saved under the new id, and the response read back from them.
    ensures var id := s.nextAccountId;
            && id in r.state.accounts && id in r.state.settings
            && r.state.accounts[id].accountId == id && r.state.accounts[id].accountNo == accountNo
            && r.state.accounts[id].balance == 0 && r.state.accounts[id].status == A.Active
            && r.state.settings[id].accountId == id
            && r.state.settings[id].dailyWithdrawLimit == 1_000_000
            && r.state.settings[id].dailyTransferLimit == 3_000_000
            && r.result.value == ResponseOf(r.state.accounts[id], r.state.settings[id])
    ensures r.state.nextAccountId > s.nextAccountId
    ensures r.state.usage == s.usage && r.state.records == s.records
    ensures r.state.guard == s.guard && r.state.lockTrace == s.lockTrace
    // Under the invariant the id is new and the invariant survives.
    ensures Inv(s) ==> s.nextAccountId !in s.accounts && s.nextAccountId !in s.settings && Inv(r.state)
  {
    var id := s.nextAccountId;
    var account := A.Create(accountNo, clock.instant).(accountId := id);
    var setting := L.DefaultOf(id);
    Step(Ok(ResponseOf(account, setting)),
         s.(accounts := s.accounts[id := account],
            settings := s.settings[id := setting],
            nextAccountId := id + 1))
  }

  /** delete: a soft delete. The row stays, with status CLOSED. */
  function Delete(s: State, accountId: A.AccountId, clock: Clock): (r: Step<()>)
    ensures accountId !in s.accounts <==> r.result == Err(Core(AccountNotFound))
    ensures r.result.Err? ==> r.state == s
    ensures r.result.Ok? ==>
              && accountId in r.state.accounts
              && r.state == s.(accounts := s.accounts[accountId := r.state.accounts[accountId]])
              && r.state.accounts[accountId].status == A.Closed
              && r.state.accounts[accountId].balance == s.accounts[accountId].balance
              && r.state.accounts[accountId].accountNo == s.accounts[accountId].accountNo
    ensures Inv(s) ==> Inv(r.state)
  {
    if accountId !in s.accounts then Step(Err(Core(AccountNotFound)), s)
    else Step(Ok(()), s.(accounts := s.accounts[accountId := A.Close(s.accounts[accountId], clock.instant)]))
  }

  /** deleting twice leaves the same state as deleting once. */
  lemma DeleteIdempotent(s: State, accountId: A.AccountId, clock: Clock)
    ensures Delete(Delete(s, accountId, clock).state, accountId, clock).state == Delete(s, accountId, clock).state
  {
    if accountId in s.accounts {
      A.CloseIdempotent(s.accounts[accountId], clock.instant, clock.instant);
    }
  }

  /** deposit: the use case's steps with the two-argument success and a zero
      fee, written out again as lines 65-90 write them. Its outcome is the
      use case's on every input. */
  function Deposit(s: State, accountId: A.AccountId, amount: int, requestId: string, clock: Clock)
    : (r: Step<Transaction>)
    ensures r == DepositUseCase.Execute(s, accountId, amount, requestId, clock)
  {
    var pending := AT.DepositPending(accountId, requestId, amount);
    var (locked, s1) := IsLocked(s, requestId);
    if locked then
      Step(Ok(Replay(s.records, requestId, pending)), s1)
    else if requestId in s1.records then
      Rollback(s, s1, DuplicateKey)
    else
      var (found, s2) := FindLocked(s1, accountId);
      if found.None? then
        Rollback(s, s2, Core(AccountNotFound))
      else
        match A.Deposit(found.value, amount, clock.instant)
        case Err(f) => Rollback(s, s2, f)
        case Ok(updated) =>
          var done := AT.Success(pending, updated.balance, 0);
          AT.AgreesWithTransaction(pending, updated.balance);
          Step(Ok(done), s2.(accounts := s2.accounts[accountId := updated],
                             records := s2.records[requestId := done]))
  }

  /** withdraw: lines 92-126 are the withdraw use case's steps in the same
      order, so the use case models it. The daily cap is inclusive and a
      success adds exactly the amount to today's withdrawal counter. */
  function Withdraw(s: State, accountId: A.AccountId, amount: int, requestId: string, clock: Clock)
    : (r: Step<Transaction>)
    ensures FirstArrival(s, requestId) && accountId in s.settings && accountId in s.accounts ==>
              (r.result == Err(Core(ExceedDailyWithdrawLimit))
               <==> WithdrawUsedToday(s, accountId, clock.today) + amount > s.settings[accountId].dailyWithdrawLimit)
    ensures requestId !in s.guard && r.result.Ok? ==>
              && accountId in s.settings && (accountId, clock.today) in r.state.usage
              && r.state.usage[(accountId, clock.today)].withdrawUsed
                 == WithdrawUsedToday(s, accountId, clock.today) + amount
              && r.state.usage[(accountId, clock.today)].withdrawUsed <= s.settings[accountId].dailyWithdrawLimit
  {
    WithdrawUseCase.Execute(s, accountId, amount, requestId, clock)
  }

  /** transfer, the older engine. The fee is 1% of the amount truncated
      toward zero, computed before the Redis check. No ledger row is ever
      saved, the read-only transaction writes nothing back, today's transfer
      counter is checked but never raised, and the completed row carries a
      fee of 1. With `recordComputedFee` the completed row carries the fee
      actually withdrawn instead. */
  function Transfer(s: State, from: A.AccountId, to: A.AccountId, amount: int, requestId: string,
                    clock: Clock, recordComputedFee: bool): (r: Step<TransferResponse>)
    ensures from == to ==> r == Step(Err(Core(SameAccountTransfer)), s)
    ensures from != to ==> r.state.guard == s.guard + {requestId}
    // Nothing reaches the database, whatever the outcome.
    ensures SameData(r.state, s)
    ensures LocksAscendFrom(s, r.state)
    ensures from != to && requestId in s.guard ==>
              r.result == Ok(Of(from, to, amount, F.PercentOf(amount, 1),
                                Replay(s.records, requestId, AT.TransferPending(from, to, requestId, amount)).status))
    ensures from != to && requestId !in s.guard ==>
              && (from !in s.settings ==> r.result == Err(Core(AccountLimitSettingNotFound)))
              && (from in s.settings && (from !in s.accounts || to !in s.accounts) ==> r.result == Err(NoSuchElement))
              && (from in s.settings && from in s.accounts && to in s.accounts ==>
                    && r.state.lockTrace == s.lockTrace + [TransferUseCase.Min(from, to), TransferUseCase.Max(from, to)]
                    && (TransferUsedToday(s, from, clock.today) + amount > s.settings[from].dailyTransferLimit ==>
                          r.result == Err(Core(ExceedDailyTransferLimit))))
    ensures from != to && requestId !in s.guard ==>
              (r.result.Ok? <==>
                 && from in s.settings && from in s.accounts && to in s.accounts
                 && TransferUsedToday(s, from, clock.today) + amount <= s.settings[from].dailyTransferLimit
                 && 0 < amount + F.PercentOf(amount, 1) <= s.accounts[from].balance && amount > 0)
    ensures from != to && requestId !in s.guard && r.result.Ok? ==>
              && r.result.value.fromAccountId == from && r.result.value.toAccountId == Some(to)
              && r.result.value.amount == amount && r.result.value.status == Success
              && r.result.value.balanceAfter == Some(s.accounts[from].balance)
              && r.result.value.feeRatePercent == None
              && r.result.value.fee == (if recordComputedFee then F.PercentOf(amount, 1) else 1)
  {
    if from == to then
      Step(Err(Core(SameAccountTransfer)), s)
    else
      var pending := AT.TransferPending(from, to, requestId, amount);
      var fee := F.PercentOf(amount, 1);
      var (locked, s1) := IsLocked(s, requestId);
      if locked then
        Step(Ok(Of(from, to, amount, fee, Replay(s.records, requestId, pending).status)), s1)
      else if from !in s1.settings then
        Rollback(s, s1, Core(AccountLimitSettingNotFound))
      else
        var (first, s2) := FindLocked(s1, TransferUseCase.Min(from, to));
        if first.None? then
          Rollback(s, s2, NoSuchElement)
        else
          var (second, s3) := FindLocked(s2, TransferUseCase.Max(from, to));
          if second.None? then
            Rollback(s, s3, NoSuchElement)
          else
            var fromAccount := s3.accounts[from];
            var toAccount := s3.accounts[to];
            var (row, _) := U.GetOrCreate(s3.usage, from, clock.today);
            if row.transferUsed + amount > s3.settings[from].dailyTransferLimit then
              Rollback(s, s3, Core(ExceedDailyTransferLimit))
            else
              match A.Withdraw(fromAccount, amount + fee, clock.instant)
              case Err(f) => Rollback(s, s3, f)
              case Ok(_) =>
                match A.Deposit(toAccount, amount, clock.instant)
                case Err(f) => Rollback(s, s3, f)
                case Ok(_) =>
                  var done := AT.Success(pending, fromAccount.balance, if recordComputedFee then fee else 1);
                  Step(Ok(From(done)), s3)
  }

  /** The code as written: at noon, 100000 from account 1 to account 2 passes
      the check that account 1 covers 100000 plus a fee of 1000, and the
      completed row reports a fee of 1. */
  lemma RecordsFeeOfOne()
    ensures var r := Transfer(TransferUseCase.ExampleState(), 1, 2, 100000, "t-1", Clock(0, 720, 0), false);
            && F.PercentOf(100000, 1) == 1000
            && r.result.Ok? && r.result.value.fee == 1
  {
    assert F.PercentOf(100000, 1) == 1000;
  }

  /** Recording the computed fee, the same request reports 1000. */
  lemma RecordsComputedFee()
    ensures var r := Transfer(TransferUseCase.ExampleState(), 1, 2, 100000, "t-1", Clock(0, 720, 0), true);
            r.result.Ok? && r.result.value.fee == 1000
  {
    assert F.PercentOf(100000, 1) == 1000;
  }

  /** Because no ledger row is saved, a retry of a transfer that succeeded
      reports it as still PENDING, with no rate and no balance. */
  lemma RetryReportsPending(s: State, from: A.AccountId, to: A.AccountId, amount: int, requestId: string,
                            clock: Clock, recordComputedFee: bool)
    requires FirstArrival(s, requestId)
    requires Transfer(s, from, to, amount, requestId, clock, recordComputedFee).result.Ok?
    ensures var s' := Transfer(s, from, to, amount, requestId, clock, recordComputedFee).state;
            var retry := Transfer(s', from, to, amount, requestId, clock, recordComputedFee);
            && retry.result.Ok? && retry.result.value.status == Pending
            && retry.result.value.balanceAfter == None
            && retry.state == s'
  {
  }
}

=== FILE: accounts.dfy ===
/** The account aggregate (account/entity/Account.java): an immutable value
    whose withdraw and deposit return a new account and never touch the
    receiver. */
module Accounts {
  import opened Errors

  type AccountId = int
  type Timestamp = int

  datatype AccountStatus = Active | Closed

  datatype Account = Account(
    accountId: AccountId,
    accountNo: string,
    balance: int,
    status: AccountStatus,
    createdAt: Timestamp,
    updatedAt: Timestamp)

  /** The identity column is null until the row is first saved. */
  const UnsavedId: AccountId := 0

  /** Identity, number, status and creation time agree. */
  predicate SameIdentity(a: Account, b: Account) {
    && a.accountId == b.accountId
    && a.accountNo == b.accountNo
    && a.status == b.status
    && a.createdAt == b.createdAt
  }

  /** Account.withdraw: the amount check comes first, then the balance check;
      the status is never consulted. */
  function Withdraw(a: Account, amount: int, now: Timestamp): (r: Result<Account>)
    ensures amount <= 0 ==> r == Err(Core(InvalidRequest))
    ensures 0 < amount && a.balance < amount ==> r == Err(Core(InsufficientBalance))
    ensures r.Ok? <==> 0 < amount <= a.balance
    ensures r.Ok? ==> SameIdentity(a, r.value) && r.value.updatedAt == now
    ensures r.Ok? ==> r.value.balance + amount == a.balance && r.value.balance >= 0
  {
    if amount <= 0 then Err(Core(InvalidRequest))
    else if a.balance < amount then Err(Core(InsufficientBalance))
    else Ok(a.(balance := a.balance - amount, updatedAt := now))
  }

  /** Account.deposit: only the amount is validated. */
  function Deposit(a: Account, amount: int, now: Timestamp): (r: Result<Account>)
    ensures r.Ok? <==> amount > 0
    ensures r.Err? ==> r.failure == Core(InvalidRequest)
    ensures r.Ok? ==> SameIdentity(a, r.value) && r.value.updatedAt == now
    ensures r.Ok? ==> r.value.balance - amount == a.balance && r.value.balance > a.balance
  {
    if amount <= 0 then Err(Core(InvalidRequest))
    else Ok(a.(balance := a.balance + amount, updatedAt := now))
  }

  /** Account.create: a new, unsaved, empty and active account. */
  function Create(accountNo: string, now: Timestamp): (a: Account)
    ensures a.balance == 0 && a.status == Active
    ensures a.accountNo == accountNo && a.accountId == UnsavedId
    ensures a.createdAt == now && a.updatedAt == now
  {
    Account(UnsavedId, accountNo, 0, Active, now, now)
  }

  /** Account.close: sets CLOSED whatever the current status. */
  function Close(a: Account, now: Timestamp): (r: Account)
    ensures r.status == Closed && r.updatedAt == now
    ensures r.accountId == a.accountId && r.accountNo == a.accountNo
    ensures r.balance == a.balance && r.createdAt == a.createdAt
  {
    a.(status := Closed, updatedAt := now)
  }

  /** Whether withdraw and deposit succeed, and with which error, depends
      only on the amount and the balance: two accounts with the same balance
      get the same verdict, whatever their status. */
  lemma OutcomeIgnoresStatus(a: Account, b: Account, amount: int, t1: Timestamp, t2: Timestamp)
    requires a.balance == b.balance
    ensures Withdraw(a, amount, t1).Ok? == Withdraw(b, amount, t2).Ok?
    ensures Withdraw(a, amount, t1).Err? ==> Withdraw(a, amount, t1) == Withdraw(b, amount, t2)
    ensures Deposit(a, amount, t1).Ok? == Deposit(b, amount, t2).Ok?
    ensures Withdraw(a, amount, t1).Ok? ==> Withdraw(a, amount, t1).value.balance == Withdraw(b, amount, t2).value.balance
  {
  }

  /** A successful deposit is undone by a withdrawal of the same amount,
      and a successful withdrawal by a deposit. */
  lemma DepositWithdrawRoundTrip(a: Account, amount: int, t1: Timestamp, t2: Timestamp)
    requires amount > 0 && a.balance >= 0
    ensures Withdraw(Deposit(a, amount, t1).value, amount, t2).Ok?
    ensures Withdraw(Deposit(a, amount, t1).value, amount, t2).value == a.(updatedAt := t2)
    ensures amount <= a.balance ==>
              Deposit(Withdraw(a, amount, t1).value, amount, t2) == Ok(a.(updatedAt := t2))
  {
  }

  /** Withdrawing exactly the balance empties the account. */
  lemma WithdrawWholeBalance(a: Account, now: Timestamp)
    requires a.balance > 0
    ensures Withdraw(a, a.balance, now).Ok? && Withdraw(a, a.balance, now).value.balance == 0
  {
  }

  /** Closing is idempotent: a second close keeps the status and balance. */
  lemma CloseIdempotent(a: Account, t1: Timestamp, t2: Timestamp)
    ensures Close(Close(a, t1), t2) == Close(a, t2)
  {
  }
}

=== FILE: daily_usage.dfy ===
/** Per-(account, day) usage counters
    (account/entity/AccountDailyLimitUsage.java) and the get-or-create
    lookup the use cases perform on them. */
module DailyUsage {
  import opened Accounts

  /** A calendar day, as a day number. */
  type Date = int

  /** The columns of the unique constraint uk_account_date. */
  type UsageKey = (AccountId, Date)

  datatype AccountDailyLimitUsage = AccountDailyLimitUsage(
    accountId: AccountId,
    limitDate: Date,
    withdrawUsed: int,
    transferUsed: int)

  function KeyOf(u: AccountDailyLimitUsage): UsageKey {
    (u.accountId, u.limitDate)
  }

  /** AccountDailyLimitUsage.init: a row with both counters at zero. */
  function Init(accountId: AccountId, date: Date): (u: AccountDailyLimitUsage)
    ensures KeyOf(u) == (accountId, date)
    ensures u.withdrawUsed == 0 && u.transferUsed == 0
  {
    AccountDailyLimitUsage(accountId, date, 0, 0)
  }

  /** addWithdrawUsed: only the withdrawal counter moves, by exactly the amount. */
  function AddWithdrawUsed(u: AccountDailyLimitUsage, amount: int): (r: AccountDailyLimitUsage)
    ensures KeyOf(r) == KeyOf(u) && r.transferUsed == u.transferUsed
    ensures r.withdrawUsed - u.withdrawUsed == amount
  {
    u.(withdrawUsed := u.withdrawUsed + amount)
  }

  /** addTransferUsed: only the transfer counter moves, by exactly the amount. */
  function AddTransferUsed(u: AccountDailyLimitUsage, amount: int): (r: AccountDailyLimitUsage)
    ensures KeyOf(r) == KeyOf(u) && r.withdrawUsed == u.withdrawUsed
    ensures r.transferUsed - u.transferUsed == amount
  {
    u.(transferUsed := u.transferUsed + amount)
  }

  /** Counters never decrease under non-negative additions, and the two
      counters are independent: the order of additions does not matter. */
  lemma CountersMonotone(u: AccountDailyLimitUsage, a: int, b: int)
    requires a >= 0 && b >= 0
    ensures AddWithdrawUsed(u, a).withdrawUsed >= u.withdrawUsed
    ensures AddTransferUsed(u, a).transferUsed >= u.transferUsed
    ensures AddWithdrawUsed(AddTransferUsed(u, a), b) == AddTransferUsed(AddWithdrawUsed(u, b), a)
    ensures AddWithdrawUsed(AddWithdrawUsed(u, a), b) == AddWithdrawUsed(u, a + b)
    ensures AddTransferUsed(AddTransferUsed(u, a), b) == AddTransferUsed(u, a + b)
  {
  }

  /** The usage table: each row sits under its own (accountId, limitDate),
      so there is at most one row per account and day. */
  ghost predicate KeyedByDay(table: map<UsageKey, AccountDailyLimitUsage>) {
    forall k :: k in table ==> KeyOf(table[k]) == k
  }

  /** In a table keyed by day, two rows for the same account and day are the
      same row. */
  lemma AtMostOneRowPerDay(table: map<UsageKey, AccountDailyLimitUsage>, k1: UsageKey, k2: UsageKey)
    requires KeyedByDay(table) && k1 in table && k2 in table
    requires KeyOf(table[k1]) == KeyOf(table[k2])
    ensures k1 == k2 && table[k1] == table[k2]
  {
  }

  /** getOrCreateUsage: the stored row for the day, or a zeroed row that is
      inserted into the table. */
  function GetOrCreate(table: map<UsageKey, AccountDailyLimitUsage>, accountId: AccountId, date: Date)
    : (r: (AccountDailyLimitUsage, map<UsageKey, AccountDailyLimitUsage>))
    ensures (accountId, date) in table ==> r.0 == table[(accountId, date)] && r.1 == table
    ensures (accountId, date) !in table ==>
              r.0.withdrawUsed == 0 && r.0.transferUsed == 0 && r.1 == table[(accountId, date) := r.0]
    ensures KeyedByDay(table) ==> KeyOf(r.0) == (accountId, date) && KeyedByDay(r.1)
    ensures r.1.Keys == table.Keys + {(accountId, date)}
  {
    var key := (accountId, date);
    if key in table then (table[key], table)
    else var row := Init(accountId, date); (row, table[key := row])
  }
}

=== FILE: deposit_use_case.dfy ===
/** DepositUseCase.execute (account/usecase/DepositUseCase.java) as one
    @Transactional step over the store. */
module DepositUseCase {
  import opened Errors
  import A = Accounts
  import opened Ledger
  import AT = AccountTransactions
  import T = Transactions
  import opened Store

  /** The precondition of a successful first arrival: the account exists and
      the amount is positive. */
  predicate CanDeposit(s: State, accountId: A.AccountId, amount: int) {
    accountId in s.accounts && amount > 0
  }

  function Execute(s: State, accountId: A.AccountId, amount: int, requestId: string, clock: Clock)
    : (r: Step<Transaction>)
    // Idempotent replay: a key already in Redis returns the stored row, or
    // the fresh PENDING row, and changes nothing.
    ensures requestId in s.guard ==>
              r == Step(Ok(Replay(s.records, requestId, AT.DepositPending(accountId, requestId, amount))), s)
    // The key is set before any validation, whatever the outcome.
    ensures r.state.guard == s.guard + {requestId}
    // Any failure rolls the database back.
    ensures r.result.Err? ==> SameData(r.state, s)
    // Error precedence on a first arrival.
    ensures FirstArrival(s, requestId) && accountId !in s.accounts ==> r.result == Err(Core(AccountNotFound))
    ensures FirstArrival(s, requestId) && accountId in s.accounts && amount <= 0 ==>
              r.result == Err(Core(InvalidRequest))
    ensures requestId !in s.guard && requestId in s.records ==> r.result == Err(DuplicateKey)
    // Success on a first arrival exactly when the account exists and the amount is positive.
    ensures requestId !in s.guard ==> (r.result.Ok? <==> FirstArrival(s, requestId) && CanDeposit(s, accountId, amount))
    ensures requestId !in s.guard && r.result.Ok? ==>
              && accountId in r.state.accounts
              && r.state.accounts == s.accounts[accountId := r.state.accounts[accountId]]
              && r.state.accounts[accountId].balance == s.accounts[accountId].balance + amount
              && A.SameIdentity(s.accounts[accountId], r.state.accounts[accountId])
              && r.state.records == s.records[requestId := r.result.value]
              && Completes(AT.DepositPending(accountId, requestId, amount), r.result.value)
              && r.result.value.balanceAfter == r.state.accounts[accountId].balance
              && r.result.value.fee == 0
    // Deposit never reads or writes limits or usage.
    ensures r.state.settings == s.settings && r.state.usage == s.usage
    ensures r.state.nextAccountId == s.nextAccountId
    // One account lock at most, taken once the row is known to exist.
    ensures r.state.lockTrace ==
              s.lockTrace + (if FirstArrival(s, requestId) && accountId in s.accounts then [accountId] else [])
    ensures Inv(s) ==> Inv(r.state)
  {
    var pending := AT.DepositPending(accountId, requestId, amount);
    var (locked, s1) := IsLocked(s, requestId);
    if locked then
      Step(Ok(Replay(s.records, requestId, pending)), s1)
    else if requestId in s1.records then
      Rollback(s, s1, DuplicateKey)
    else
      var (found, s2) := FindLocked(s1, accountId);
      if found.None? then
        Rollback(s, s2, Core(AccountNotFound))
      else
        match A.Deposit(found.value, amount, clock.instant)
        case Err(f) => Rollback(s, s2, f)
        case Ok(updated) =>
          var done := T.Success(pending, updated.balance);
          Step(Ok(done), s2.(accounts := s2.accounts[accountId := updated],
                             records := s2.records[requestId := done]))
  }
}

=== FILE: errors.dfy ===
/** Failure kinds raised by the remittance core, and the small wrappers the
    model uses in place of exceptions and nullable values. */
module Errors {

  /** The error catalogue of the service (common/exception/ErrorType.java). */
  datatype ErrorType =
    | TxNotFound
    | AccountNotFound
    | AccountLimitSettingNotFound
    | InvalidRequest
    | SameAccountTransfer
    | InsufficientBalance
    | ExceedDailyWithdrawLimit
    | ExceedDailyTransferLimit
    | CalculatorNotFound

  /** What an operation can throw: a typed CoreException, the untyped
      exception of a bare `Optional.orElseThrow()`, or the store refusing an
      insert that would break a unique column. */
  datatype Failure =
    | Core(kind: ErrorType)
    | NoSuchElement
    | DuplicateKey

  datatype Option<+T> = None | Some(value: T)

  datatype Result<+T> = Ok(value: T) | Err(failure: Failure)
}

=== FILE: fees.dfy ===
/** The fee policy engine (account/usecase/policy): two concrete policies and
    the finder that picks the first applicable non-default one, falling back
    to the default. Rates are integer percentages; `(long) (amount * rate)`
    becomes a division that truncates toward zero, as the cast does. */
module Fees {
  import opened Errors

  datatype FeePolicyType = Default | Night

  /** Time of day at minute resolution, 00:00 = 0 .. 23:59 = 1439. */
  type MinuteOfDay = m: int | 0 <= m < 1440

  datatype FeeRequest = FeeRequest(amount: int, requestedAt: MinuteOfDay)

  datatype FeeResponse = FeeResponse(policyType: FeePolicyType, ratePercent: nat, feeAmount: int)

  /** Java integer division and double-to-long casts truncate toward zero;
      Dafny's `/` is Euclidean, so negative numerators are handled apart. */
  function TruncDiv(a: int, b: int): int
    requires b > 0
  {
    if a >= 0 then a / b else -((-a) / b)
  }

  /** `percent` percent of `amount`, truncated toward zero. */
  function PercentOf(amount: int, percent: nat): int {
    TruncDiv(amount * percent, 100)
  }

  /** For a non-negative amount the fee is the floor of amount * percent / 100:
      the largest whole number of units not above the exact product. */
  lemma PercentOfIsFloor(amount: int, percent: nat)
    requires amount >= 0
    ensures PercentOf(amount, percent) * 100 <= amount * percent < (PercentOf(amount, percent) + 1) * 100
    ensures 0 <= PercentOf(amount, percent)
    ensures percent <= 100 ==> PercentOf(amount, percent) <= amount
  {
    var q := PercentOf(amount, percent);
    assert q == (amount * percent) / 100;
    if percent <= 100 {
      assert amount * percent <= amount * 100;
    }
  }

  /** For a negative amount the fee truncates toward zero, so it is never
      below the amount and never positive. */
  lemma PercentOfNegative(amount: int, percent: nat)
    requires amount < 0 && percent <= 100
    ensures amount <= PercentOf(amount, percent) <= 0
  {
    assert (-amount) * percent <= (-amount) * 100;
    assert amount * percent == -((-amount) * percent);
  }

  // ---- NightFeeCalculator -------------------------------------------------

  const NightStart: MinuteOfDay := 23 * 60
  const NightEnd: MinuteOfDay := 6 * 60

  /** NightFeeCalculator.isNight: not before 23:00, or before 06:00. */
  function IsNight(t: MinuteOfDay): bool {
    !(t < NightStart) || t < NightEnd
  }

  /** The night window, counted independently as the seven hours that follow
      23:00 around the clock: [23:00, 06:00) with midnight wrap-around. */
  lemma IsNightIsSevenHourWindow(t: MinuteOfDay)
    ensures IsNight(t) <==> (t - 23 * 60) % 1440 < 7 * 60
  {
  }

  /** The boundaries the calculator's own test exercises. */
  lemma NightBoundaries()
    ensures IsNight(23 * 60) && IsNight(23 * 60 + 1) && IsNight(0) && IsNight(5 * 60 + 59)
    ensures !IsNight(6 * 60) && !IsNight(12 * 60) && !IsNight(22 * 60 + 59)
  {
  }

  /** NightFeeCalculator.applicable: reads the wall clock, not the request. */
  function NightApplicable(request: FeeRequest, now: MinuteOfDay): bool {
    IsNight(now)
  }

  /** NightFeeCalculator.calculate: 2 percent, tagged NIGHT. */
  function NightCalculate(request: FeeRequest): (r: FeeResponse)
    ensures r.policyType == Night && r.ratePercent == 2
    ensures request.amount >= 0 ==> r.feeAmount * 50 <= request.amount < (r.feeAmount + 1) * 50
  {
    var fee := PercentOf(request.amount, 2);
    assert request.amount >= 0 ==> fee * 50 <= request.amount < (fee + 1) * 50 by {
      if request.amount >= 0 { PercentOfIsFloor(request.amount, 2); }
    }
    FeeResponse(Night, 2, fee)
  }

  // ---- DefaultFeeCalculator -----------------------------------------------

  /** DefaultFeeCalculator.applicable: always. */
  function DefaultApplicable(request: FeeRequest, now: MinuteOfDay): bool {
    true
  }

  /** DefaultFeeCalculator.calculate: 1 percent, tagged DEFAULT. */
  function DefaultCalculate(request: FeeRequest): (r: FeeResponse)
    ensures r.policyType == Default && r.ratePercent == 1
    ensures request.amount >= 0 ==> 0 <= r.feeAmount <= request.amount
    ensures request.amount >= 0 ==> r.feeAmount * 100 <= request.amount < (r.feeAmount + 1) * 100
  {
    var fee := PercentOf(request.amount, 1);
    assert request.amount >= 0 ==> 0 <= fee <= request.amount && fee * 100 <= request.amount < (fee + 1) * 100 by {
      if request.amount >= 0 { PercentOfIsFloor(request.amount, 1); }
    }
    FeeResponse(Default, 1, fee)
  }

  /** The amounts the calculators' own tests use. */
  lemma FeeExamples(t: MinuteOfDay)
    ensures DefaultCalculate(FeeRequest(1000, t)).feeAmount == 10
    ensures DefaultCalculate(FeeRequest(10000, t)).feeAmount == 100
    ensures DefaultCalculate(FeeRequest(5500, t)).feeAmount == 55
    ensures DefaultCalculate(FeeRequest(99, t)).feeAmount == 0
    ensures NightCalculate(FeeRequest(100000, t)).feeAmount == 2000
  {
  }

  // ---- FeeCalculator and FeeCalculatorFinder ------------------------------

  /** One registered FeeCalculator: its type(), applicable() and calculate().
      `applicable` sees the request and the wall-clock time of day. */
  datatype FeeCalculator = FeeCalculator(
    kind: FeePolicyType,
    applicable: (FeeRequest, MinuteOfDay) -> bool,
    calculate: FeeRequest -> FeeResponse)

  const NightFeeCalculator: FeeCalculator := FeeCalculator(Night, NightApplicable, NightCalculate)
  const DefaultFeeCalculator: FeeCalculator := FeeCalculator(Default, DefaultApplicable, DefaultCalculate)

  /** Whether the night calculator applies is a function of the clock alone. */
  lemma NightIgnoresRequest(r1: FeeRequest, r2: FeeRequest, now: MinuteOfDay)
    ensures NightFeeCalculator.applicable(r1, now) == NightFeeCalculator.applicable(r2, now)
    ensures NightFeeCalculator.applicable(r1, now) == IsNight(now)
    ensures DefaultFeeCalculator.applicable(r1, now)
  {
  }

  /** The loop of FeeCalculatorFinder.calculate from position i onward, with
      the DEFAULT calculator remembered so far. */
  function Scan(cs: seq<FeeCalculator>, i: nat, request: FeeRequest, now: MinuteOfDay,
                fallback: Option<FeeCalculator>): Result<FeeResponse>
    requires i <= |cs|
    decreases |cs| - i
  {
    if i == |cs| then
      match fallback
      case None => Err(Core(CalculatorNotFound))
      case Some(d) => Ok(d.calculate(request))
    else if cs[i].kind == Default then
      Scan(cs, i + 1, request, now, Some(cs[i]))
    else if cs[i].applicable(request, now) then
      Ok(cs[i].calculate(request))
    else
      Scan(cs, i + 1, request, now, fallback)
  }

  /** FeeCalculatorFinder.calculate. */
  function Calculate(cs: seq<FeeCalculator>, request: FeeRequest, now: MinuteOfDay): Result<FeeResponse> {
    Scan(cs, 0, request, now, None)
  }

  // ---- Reference description of the dispatch ------------------------------

  /** cs[i] is consulted and rejected by the loop: a non-default calculator
      that does not apply. DEFAULT calculators are skipped without asking. */
  predicate Passes(c: FeeCalculator, request: FeeRequest, now: MinuteOfDay) {
    c.kind == Default || !c.applicable(request, now)
  }

  /** cs[i] is the first non-default calculator that applies. */
  predicate IsFirstApplicable(cs: seq<FeeCalculator>, request: FeeRequest, now: MinuteOfDay, i: int) {
    && 0 <= i < |cs|
    && cs[i].kind != Default
    && cs[i].applicable(request, now)
    && forall j :: 0 <= j < i ==> Passes(cs[j], request, now)
  }

  /** No non-default calculator applies. */
  predicate NoneApplicable(cs: seq<FeeCalculator>, request: FeeRequest, now: MinuteOfDay) {
    forall j :: 0 <= j < |cs| ==> Passes(cs[j], request, now)
  }

  /** cs[d] is the last DEFAULT calculator in list order. */
  predicate IsLastDefault(cs: seq<FeeCalculator>, d: int) {
    && 0 <= d < |cs|
    && cs[d].kind == Default
    && forall j :: d < j < |cs| ==> cs[j].kind != Default
  }

  predicate HasDefault(cs: seq<FeeCalculator>) {
    exists j :: 0 <= j < |cs| && cs[j].kind == Default
  }

  /** The loop from position i meets the description: it returns the first
      applicable non-default at or after i, else the last DEFAULT at or after
      i, else the remembered fallback, else CALCULATOR_NOT_FOUND. */
  lemma {:induction false} ScanSpec(cs: seq<FeeCalculator>, i: nat, request: FeeRequest,
                                    now: MinuteOfDay, fallback: Option<FeeCalculator>)
    requires i <= |cs|
    requires fallback.Some? ==> fallback.value.kind == Default
    decreases |cs| - i
    ensures forall k :: i <= k < |cs| && cs[k].kind != Default && cs[k].applicable(request, now)
                        && (forall j :: i <= j < k ==> Passes(cs[j], request, now))
                        ==> Scan(cs, i, request, now, fallback) == Ok(cs[k].calculate(request))
    ensures (forall j :: i <= j < |cs| ==> Passes(cs[j], request, now)) ==>
              (forall d :: i <= d < |cs| && IsLastDefault(cs, d)
                           ==> Scan(cs, i, request, now, fallback) == Ok(cs[d].calculate(request)))
              && ((forall j :: i <= j < |cs| ==> cs[j].kind != Default) ==>
                    Scan(cs, i, request, now, fallback) ==
                      (if fallback.Some? then Ok(fallback.value.calculate(request))
                       else Err(Core(CalculatorNotFound))))
  {
    if i < |cs| {
      if cs[i].kind == Default {
        ScanSpec(cs, i + 1, request, now, Some(cs[i]));
      } else if !cs[i].applicable(request, now) {
        ScanSpec(cs, i + 1, request, now, fallback);
      }
    }
  }

  /** FeeCalculatorFinder.calculate against the description: the first
      applicable non-default wins (even with no DEFAULT registered); failing
      that the last DEFAULT in list order is used; with neither the call fails
      with CALCULATOR_NOT_FOUND. */
  lemma {:induction false} CalculateSpec(cs: seq<FeeCalculator>, request: FeeRequest, now: MinuteOfDay)
    ensures forall i :: IsFirstApplicable(cs, request, now, i) ==>
              Calculate(cs, request, now) == Ok(cs[i].calculate(request))
    ensures forall d :: NoneApplicable(cs, request, now) && IsLastDefault(cs, d) ==>
              Calculate(cs, request, now) == Ok(cs[d].calculate(request))
    ensures NoneApplicable(cs, request, now) && !HasDefault(cs) ==>
              Calculate(cs, request, now) == Err(Core(CalculatorNotFound))
    ensures Calculate(cs, request, now).Err? <==> NoneApplicable(cs, request, now) && !HasDefault(cs)
  {
    ScanSpec(cs, 0, request, now, None);
    if NoneApplicable(cs, request, now) && HasDefault(cs) {
      var d := LastDefault(cs);
      assert IsLastDefault(cs, d);
    }
    if !NoneApplicable(cs, request, now) {
      var i := FirstApplicable(cs, request, now);
      assert IsFirstApplicable(cs, request, now, i);
    }
  }

  /** Index of the last DEFAULT, found from the right. */
  function LastDefault(cs: seq<FeeCalculator>): (d: int)
    requires HasDefault(cs)
    ensures IsLastDefault(cs, d)
  {
    if cs[|cs| - 1].kind == Default then |cs| - 1
    else
      assert HasDefault(cs[..|cs| - 1]) by {
        var j :| 0 <= j < |cs| && cs[j].kind == Default;
        assert cs[..|cs| - 1][j] == cs[j];
      }
      var d := LastDefault(cs[..|cs| - 1]);
      assert cs[d] == cs[..|cs| - 1][d];
      d
  }

  /** Index of the first applicable non-default, found from the left. */
  function FirstApplicable(cs: seq<FeeCalculator>, request: FeeRequest, now: MinuteOfDay): (i: int)
    requires !NoneApplicable(cs, request, now)
    ensures IsFirstApplicable(cs, request, now, i)
  {
    if !Passes(cs[0], request, now) then 0
    else
      assert !NoneApplicable(cs[1..], request, now) by {
        var j :| 0 <= j < |cs| && !Passes(cs[j], request, now);
        assert cs[1..][j - 1] == cs[j];
      }
      var i := FirstApplicable(cs[1..], request, now);
      assert cs[i + 1] == cs[1..][i];
      assert forall j :: 1 <= j < i + 1 ==> cs[j] == cs[1..][j - 1];
      i + 1
  }

  /** Calculators after the first applicable one are never consulted:
      whatever follows it, the result is the same. */
  lemma IgnoresCalculatorsAfterFirstApplicable(cs: seq<FeeCalculator>, rest: seq<FeeCalculator>,
                                               request: FeeRequest, now: MinuteOfDay, i: int)
    requires IsFirstApplicable(cs, request, now, i)
    ensures Calculate(cs[..i + 1] + rest, request, now) == Calculate(cs, request, now) == Ok(cs[i].calculate(request))
  {
    var cs' := cs[..i + 1] + rest;
    assert forall j :: 0 <= j <= i ==> cs'[j] == cs[j];
    assert IsFirstApplicable(cs', request, now, i);
    CalculateSpec(cs, request, now);
    CalculateSpec(cs', request, now);
  }

  /** cs and cs' register the same calculators, except that a DEFAULT entry
      may answer `applicable` differently. */
  ghost predicate AgreeExceptDefaultApplicability(cs: seq<FeeCalculator>, cs': seq<FeeCalculator>) {
    && |cs| == |cs'|
    && forall i :: 0 <= i < |cs| ==>
         && cs[i].kind == cs'[i].kind
         && cs[i].calculate == cs'[i].calculate
         && (cs[i].kind != Default ==> cs[i].applicable == cs'[i].applicable)
  }

  /** A DEFAULT calculator is never asked whether it applies: changing its
      answer cannot change the finder's result. */
  lemma {:induction false} DefaultNeverAsked(cs: seq<FeeCalculator>, cs': seq<FeeCalculator>, i: nat,
                                             request: FeeRequest, now: MinuteOfDay,
                                             fallback: Option<FeeCalculator>, fallback': Option<FeeCalculator>)
    requires AgreeExceptDefaultApplicability(cs, cs') && i <= |cs|
    requires fallback.Some? <==> fallback'.Some?
    requires fallback.Some? ==> fallback.value.calculate == fallback'.value.calculate
    decreases |cs| - i
    ensures Scan(cs, i, request, now, fallback) == Scan(cs', i, request, now, fallback')
  {
    if i < |cs| {
      if cs[i].kind == Default {
        DefaultNeverAsked(cs, cs', i + 1, request, now, Some(cs[i]), Some(cs'[i]));
      } else {
        DefaultNeverAsked(cs, cs', i + 1, request, now, fallback, fallback');
      }
    }
  }

  /** The registry the service wires up, in either registration order: the
      night policy between 23:00 and 06:00, the default policy otherwise. */
  lemma StandardRegistry(request: FeeRequest, now: MinuteOfDay)
    ensures Calculate([NightFeeCalculator, DefaultFeeCalculator], request, now)
            == Ok(if IsNight(now) then NightCalculate(request) else DefaultCalculate(request))
    ensures Calculate([DefaultFeeCalculator, NightFeeCalculator], request, now)
            == Ok(if IsNight(now) then NightCalculate(request) else DefaultCalculate(request))
  {
    var nd := [NightFeeCalculator, DefaultFeeCalculator];
    assert nd[0].applicable(request, now) == IsNight(now);
    if !IsNight(now) {
      assert Scan(nd, 2, request, now, Some(DefaultFeeCalculator)) == Ok(DefaultCalculate(request));
      assert Scan(nd, 1, request, now, None) == Ok(DefaultCalculate(request));
    }
    var dn := [DefaultFeeCalculator, NightFeeCalculator];
    assert dn[1].applicable(request, now) == IsNight(now);
    assert Scan(dn, 2, request, now, Some(DefaultFeeCalculator)) == Ok(DefaultCalculate(request));
    assert Scan(dn, 1, request, now, Some(DefaultFeeCalculator))
           == Ok(if IsNight(now) then NightCalculate(request) else DefaultCalculate(request));
  }
}

=== FILE: ledger.dfy ===
/** The ledger record. Transaction.java and AccountTransaction.java are two
    revisions of the same row; the use cases build it with the
    AccountTransaction factories but complete it with both `success`
    overloads of Transaction, and read its fee rate, so one datatype carries
    the union of their columns. Timestamps are not modelled. */
module Ledger {
  import opened Errors
  import A = Accounts
  import opened Fees

  datatype TransactionType = Withdraw | Deposit | Transfer

  datatype TransactionStatus = Pending | Success

  datatype Transaction = Transaction(
    accountId: A.AccountId,
    requestId: string,
    txType: TransactionType,
    status: TransactionStatus,
    amount: int,
    fee: int,
    feePolicyType: Option<FeePolicyType>,
    feeRatePercent: Option<nat>,
    target: Option<A.AccountId>,
    balanceAfter: int)

  /** The shape every `*Pending` factory produces: PENDING, no fee, no
      balance snapshot, no fee policy, and the given owner, request id,
      kind and amount. */
  predicate IsFreshPending(t: Transaction, accountId: A.AccountId, requestId: string,
                           txType: TransactionType, amount: int) {
    && t.status == Pending
    && t.accountId == accountId && t.requestId == requestId
    && t.txType == txType && t.amount == amount
    && t.fee == 0 && t.balanceAfter == 0
    && t.feePolicyType == None && t.feeRatePercent == None
  }

  /** `done` is a completion of `t`: the single PENDING -> SUCCESS step, with
      the owner, request id, kind, amount and counterparty left alone. */
  predicate Completes(t: Transaction, done: Transaction) {
    && done.status == Success
    && done.accountId == t.accountId && done.requestId == t.requestId
    && done.txType == t.txType && done.amount == t.amount
    && done.target == t.target
  }
}

/** The factories and completions of account/entity/Transaction.java. */
module Transactions {
  import opened Errors
  import A = Accounts
  import opened Fees
  import opened Ledger

  function WithdrawPending(accountId: A.AccountId, requestId: string, amount: int): (t: Transaction)
    ensures IsFreshPending(t, accountId, requestId, Withdraw, amount) && t.target == None
  {
    Transaction(accountId, requestId, Withdraw, Pending, amount, 0, None, None, None, 0)
  }

  function DepositPending(accountId: A.AccountId, requestId: string, amount: int): (t: Transaction)
    ensures IsFreshPending(t, accountId, requestId, Deposit, amount) && t.target == None
  {
    Transaction(accountId, requestId, Deposit, Pending, amount, 0, None, None, None, 0)
  }

  function TransferPending(accountId: A.AccountId, targetAccountId: A.AccountId, requestId: string,
                           amount: int): (t: Transaction)
    ensures IsFreshPending(t, accountId, requestId, Transfer, amount)
    ensures t.target == Some(targetAccountId)
  {
    Transaction(accountId, requestId, Transfer, Pending, amount, 0, None, None, Some(targetAccountId), 0)
  }

  /** success(balanceAfter): completes with the snapshot and forces the fee to 0. */
  function Success(t: Transaction, balanceAfter: int): (r: Transaction)
    ensures Completes(t, r)
    ensures r.balanceAfter == balanceAfter && r.fee == 0
    ensures r.feePolicyType == t.feePolicyType && r.feeRatePercent == t.feeRatePercent
  {
    t.(status := TransactionStatus.Success, balanceAfter := balanceAfter, fee := 0)
  }

  /** success(balanceAfter, fee, feeResponse): completes with the snapshot and
      the fee, and copies the policy tag and rate from the fee response. */
  function SuccessWithFee(t: Transaction, balanceAfter: int, fee: int, response: FeeResponse): (r: Transaction)
    ensures Completes(t, r)
    ensures r.balanceAfter == balanceAfter && r.fee == fee
    ensures r.feePolicyType == Some(response.policyType)
    ensures r.feeRatePercent == Some(response.ratePercent)
  {
    t.(status := TransactionStatus.Success, balanceAfter := balanceAfter, fee := fee,
       feePolicyType := Some(response.policyType), feeRatePercent := Some(response.ratePercent))
  }

  /** Only the transfer factory names a counterparty, and no two factories
      produce the same record. */
  lemma OnlyTransferHasTarget(accountId: A.AccountId, target: A.AccountId, requestId: string, amount: int)
    ensures WithdrawPending(accountId, requestId, amount).target == None
    ensures DepositPending(accountId, requestId, amount).target == None
    ensures TransferPending(accountId, target, requestId, amount).target.Some?
    ensures WithdrawPending(accountId, requestId, amount) != DepositPending(accountId, requestId, amount)
  {
  }

  /** Completing twice is the same as completing once with the later values. */
  lemma SuccessLastWins(t: Transaction, b1: int, b2: int, f: int, response: FeeResponse)
    ensures Success(Success(t, b1), b2) == Success(t, b2)
    ensures SuccessWithFee(SuccessWithFee(t, b1, f, response), b2, f, response) == SuccessWithFee(t, b2, f, response)
  {
  }
}

/** The factories and completion of account/entity/AccountTransaction.java. */
module AccountTransactions {
  import opened Errors
  import A = Accounts
  import opened Fees
  import opened Ledger
  import T = Transactions

  /** The three factories build exactly the rows of their Transaction.java
      namesakes: a fresh PENDING row of the matching kind, with a
      counterparty only for a transfer. */
  function WithdrawPending(accountId: A.AccountId, transactionId: string, amount: int): (t: Transaction)
    ensures IsFreshPending(t, accountId, transactionId, Withdraw, amount) && t.target == None
  {
    T.WithdrawPending(accountId, transactionId, amount)
  }

  function DepositPending(accountId: A.AccountId, transactionId: string, amount: int): (t: Transaction)
    ensures IsFreshPending(t, accountId, transactionId, Deposit, amount) && t.target == None
  {
    T.DepositPending(accountId, transactionId, amount)
  }

  function TransferPending(accountId: A.AccountId, targetAccountId: A.AccountId, transactionId: string,
                           amount: int): (t: Transaction)
    ensures IsFreshPending(t, accountId, transactionId, Transfer, amount)
    ensures t.target == Some(targetAccountId)
  {
    T.TransferPending(accountId, targetAccountId, transactionId, amount)
  }

  /** success(balanceAfter, fee): completes with exactly the given snapshot and fee. */
  function Success(t: Transaction, balanceAfter: int, fee: int): (r: Transaction)
    ensures Completes(t, r)
    ensures r.balanceAfter == balanceAfter && r.fee == fee
    ensures r.feePolicyType == t.feePolicyType && r.feeRatePercent == t.feeRatePercent
  {
    t.(status := TransactionStatus.Success, balanceAfter := balanceAfter, fee := fee)
  }

  /** The fee-less completion of Transaction is AccountTransaction's
      completion with a zero fee. */
  lemma AgreesWithTransaction(t: Transaction, balanceAfter: int)
    ensures Success(t, balanceAfter, 0) == T.Success(t, balanceAfter)
  {
  }

  /** Transaction's three-argument completion is this completion plus the
      fee policy copied from the fee response. */
  lemma SuccessWithFeeExtends(t: Transaction, balanceAfter: int, fee: int, response: FeeResponse)
    ensures T.SuccessWithFee(t, balanceAfter, fee, response)
            == Success(t, balanceAfter, fee).(feePolicyType := Some(response.policyType),
                                              feeRatePercent := Some(response.ratePercent))
  {
  }
}

=== FILE: limit_settings.dfy ===
/** Per-account daily caps (account/entity/AccountLimitSetting.java). */
module LimitSettings {
  import opened Accounts

  datatype AccountLimitSetting = AccountLimitSetting(
    accountId: AccountId,
    dailyWithdrawLimit: int,
    dailyTransferLimit: int)

  /** AccountLimitSetting.defaultOf: one million a day for withdrawals and
      three million a day for transfers. */
  function DefaultOf(accountId: AccountId): (s: AccountLimitSetting)
    ensures s.accountId == accountId
    ensures s.dailyWithdrawLimit == 1_000_000
    ensures s.dailyTransferLimit == 3_000_000
  {
    AccountLimitSetting(accountId, 1_000_000, 3_000_000)
  }

  /** AccountLimitSetting.change: both caps are overwritten, the owner kept. */
  function Change(s: AccountLimitSetting, withdrawLimit: int, transferLimit: int): (r: AccountLimitSetting)
    ensures r.accountId == s.accountId
    ensures r.dailyWithdrawLimit == withdrawLimit && r.dailyTransferLimit == transferLimit
  {
    s.(dailyWithdrawLimit := withdrawLimit, dailyTransferLimit := transferLimit)
  }

  /** The last change wins, and changing to the current caps is a no-op. */
  lemma ChangeLastWins(s: AccountLimitSetting, w1: int, t1: int, w2: int, t2: int)
    ensures Change(Change(s, w1, t1), w2, t2) == Change(s, w2, t2)
    ensures Change(s, s.dailyWithdrawLimit, s.dailyTransferLimit) == s
  {
  }
}

=== FILE: runs.dfy ===
/** Sequences of requests as the controller dispatches them
    (account/controller/AccountController.java): create, read and delete go
    to the service, the money operations to the three use cases. What holds
    of every run: the table invariant, the ledger only ever growing, and
    each request id executing at most once. */
module Runs {
  import opened Errors
  import A = Accounts
  import L = LimitSettings
  import F = Fees
  import opened Ledger
  import opened Store
  import DepositUseCase
  import WithdrawUseCase
  import TransferUseCase
  import AccountService

  datatype Op =
    | CreateAccount(accountNo: string)
    | DeleteAccount(accountId: A.AccountId)
    | DepositMoney(accountId: A.AccountId, amount: int, requestId: string)
    | WithdrawMoney(accountId: A.AccountId, amount: int, requestId: string)
    | TransferMoney(from: A.AccountId, to: A.AccountId, amount: int, requestId: string)

  /** One request and the clock readings it is served at. */
  datatype Request = Request(op: Op, clock: Clock)

  /** Every ledger row of `s` is still in `t`, unchanged. */
  predicate RecordsKept(s: State, t: State) {
    forall id :: id in s.records ==> id in t.records && t.records[id] == s.records[id]
  }

  /** The request id an operation carries, if it has one. */
  function RequestIdOf(op: Op): Option<string> {
    match op
    case DepositMoney(_, _, id) => Some(id)
    case WithdrawMoney(_, _, id) => Some(id)
    case TransferMoney(_, _, _, id) => Some(id)
    case _ => None
  }

  /** Serve one request. `saveBalances` selects the transfer: false is the
      code as written, which discards the accounts it computes, and true
      saves them, the behaviour the transfer use case evidently intends.
      Everything proved below holds for both. */
  function Apply(s: State, req: Request, calculators: seq<F.FeeCalculator>, saveBalances: bool): (t: State)
    ensures Inv(s) ==> Inv(t)
    ensures RecordsKept(s, t)
    ensures s.guard <= t.guard
    // A request whose id Redis already holds changes nothing at all.
    ensures RequestIdOf(req.op).Some? && RequestIdOf(req.op).value in s.guard ==> t == s
    // A money request leaves its id in Redis, whatever the outcome.
    ensures RequestIdOf(req.op).Some? && !(req.op.TransferMoney? && req.op.from == req.op.to) ==>
              RequestIdOf(req.op).value in t.guard
  {
    match req.op
    case CreateAccount(no) => AccountService.Create(s, no, req.clock).state
    case DeleteAccount(id) => AccountService.Delete(s, id, req.clock).state
    case DepositMoney(id, amount, requestId) => DepositUseCase.Execute(s, id, amount, requestId, req.clock).state
    case WithdrawMoney(id, amount, requestId) => WithdrawUseCase.Execute(s, id, amount, requestId, req.clock).state
    case TransferMoney(from, to, amount, requestId) =>
      TransferUseCase.Execute(s, from, to, amount, requestId, calculators, req.clock, saveBalances).state
  }

  /** Serve the requests in order. */
  function Run(s: State, reqs: seq<Request>, calculators: seq<F.FeeCalculator>, saveBalances: bool): State
    decreases |reqs|
  {
    if |reqs| == 0 then s else Run(Apply(s, reqs[0], calculators, saveBalances), reqs[1..], calculators, saveBalances)
  }

  /** Every run from a well-formed state ends in a well-formed state: ids
      and keys stay unique, balances and counters stay non-negative, and
      every ledger row is a completed one. */
  lemma {:induction false} RunPreservesInv(s: State, reqs: seq<Request>, calculators: seq<F.FeeCalculator>,
                                             saveBalances: bool)
    requires Inv(s)
    ensures Inv(Run(s, reqs, calculators, saveBalances))
    decreases |reqs|
  {
    if |reqs| > 0 {
      RunPreservesInv(Apply(s, reqs[0], calculators, saveBalances), reqs[1..], calculators, saveBalances);
    }
  }

  /** The ledger is append-only and Redis keys are never released. */
  lemma {:induction false} RunKeepsRecords(s: State, reqs: seq<Request>, calculators: seq<F.FeeCalculator>,
                                             saveBalances: bool)
    ensures RecordsKept(s, Run(s, reqs, calculators, saveBalances))
    ensures s.guard <= Run(s, reqs, calculators, saveBalances).guard
    decreases |reqs|
  {
    if |reqs| > 0 {
      var t := Apply(s, reqs[0], calculators, saveBalances);
      RunKeepsRecords(t, reqs[1..], calculators, saveBalances);
    }
  }

  /** A request id is executed at most once while its Redis key is held:
      once any money request with that id has been served, every later
      request carrying it, with no expiry in between, changes nothing. */
  lemma {:induction false} LaterRepeatsChangeNothing(s: State, reqs: seq<Request>, calculators: seq<F.FeeCalculator>,
                                                     saveBalances: bool, requestId: string)
    requires requestId in s.guard
    ensures forall i :: 0 <= i < |reqs| && RequestIdOf(reqs[i].op) == Some(requestId) ==>
              var before := Run(s, reqs[..i], calculators, saveBalances);
              Apply(before, reqs[i], calculators, saveBalances) == before
    decreases |reqs|
  {
    if |reqs| > 0 {
      var t := Apply(s, reqs[0], calculators, saveBalances);
      LaterRepeatsChangeNothing(t, reqs[1..], calculators, saveBalances, requestId);
      forall i | 0 <= i < |reqs| && RequestIdOf(reqs[i].op) == Some(requestId)
        ensures var before := Run(s, reqs[..i], calculators, saveBalances);
                Apply(before, reqs[i], calculators, saveBalances) == before
      {
        if i > 0 {
          assert reqs[..i][1..] == reqs[1..][..i - 1];
          assert reqs[i] == reqs[1..][i - 1];
        }
      }
    }
  }

  /** Retrying a withdrawal, whatever the first outcome, returns what the
      ledger holds for the id, or the fresh PENDING row, and debits nothing
      more. */
  lemma WithdrawRetryDebitsOnce(s: State, accountId: A.AccountId, amount: int, requestId: string, clock: Clock)
    ensures var first := WithdrawUseCase.Execute(s, accountId, amount, requestId, clock);
            var retry := WithdrawUseCase.Execute(first.state, accountId, amount, requestId, clock);
            && retry.state == first.state
            && retry.result.Ok?
            && (first.result.Ok? ==> retry.result == first.result)
  {
  }

  /** While its key is held, a request that failed on first arrival cannot
      succeed: its row was rolled back, so every retry reports the fresh
      PENDING row. (Once the key expires it runs afresh; see below.) */
  lemma FailedRequestReplaysPending(s: State, accountId: A.AccountId, amount: int, requestId: string, clock: Clock)
    requires Inv(s)
    requires WithdrawUseCase.Execute(s, accountId, amount, requestId, clock).result.Err?
    ensures var first := WithdrawUseCase.Execute(s, accountId, amount, requestId, clock);
            var retry := WithdrawUseCase.Execute(first.state, accountId, amount, requestId, clock);
            && retry.result.Ok? && retry.result.value.status == Pending
            && retry.result.value.requestId == requestId
            && retry.state == first.state
  {
  }

  /** While a request's key is held and it has no ledger row, no run adds
      one: a request carrying that id changes nothing, and every other
      request writes only under its own id. */
  lemma {:induction false} NoRowWhileHeld(s: State, reqs: seq<Request>, calculators: seq<F.FeeCalculator>,
                                          saveBalances: bool, requestId: string)
    requires Inv(s) && requestId in s.guard && requestId !in s.records
    ensures requestId !in Run(s, reqs, calculators, saveBalances).records
    decreases |reqs|
  {
    if |reqs| > 0 {
      NoRowWhileHeld(Apply(s, reqs[0], calculators, saveBalances), reqs[1..], calculators, saveBalances, requestId);
    }
  }

  /** Once the key of a failed withdrawal expires, a retry is a first
      arrival again, whatever ran in between: the rollback left no ledger
      row for it and nothing since could add one, so the retry succeeds
      exactly when the account can by then cover the amount. */
  lemma FailedRequestRerunsAfterExpiry(s: State, accountId: A.AccountId, amount: int, requestId: string,
                                       clock: Clock, reqs: seq<Request>, calculators: seq<F.FeeCalculator>,
                                       saveBalances: bool)
    requires Inv(s) && requestId !in s.guard
    requires WithdrawUseCase.Execute(s, accountId, amount, requestId, clock).result.Err?
    ensures var later := Run(WithdrawUseCase.Execute(s, accountId, amount, requestId, clock).state,
                             reqs, calculators, saveBalances);
            && FirstArrival(Expire(later, requestId), requestId)
            && (WithdrawUseCase.Execute(Expire(later, requestId), accountId, amount, requestId, clock).result.Ok?
                <==> WithdrawUseCase.CanWithdraw(Expire(later, requestId), accountId, amount, clock.today))
  {
    var first := WithdrawUseCase.Execute(s, accountId, amount, requestId, clock);
    NoRowWhileHeld(first.state, reqs, calculators, saveBalances, requestId);
  }

  /** An account holding nothing: a withdrawal of 100 fails, a deposit of
      100 follows, the withdrawal's key expires, and the same withdrawal
      retried now succeeds and leaves the account empty. */
  lemma ExpiredRetrySucceeds()
    ensures var s := State(map[1 := A.Account(1, "1001", 0, A.Active, 0, 0)], map[1 := L.DefaultOf(1)],
                           map[], map[], {}, [], 2);
            var clock := Clock(0, 720, 0);
            var first := WithdrawUseCase.Execute(s, 1, 100, "w-1", clock);
            var topUp := DepositUseCase.Execute(first.state, 1, 100, "d-1", clock);
            var retry := WithdrawUseCase.Execute(Expire(topUp.state, "w-1"), 1, 100, "w-1", clock);
            && first.result == Err(Core(InsufficientBalance))
            && topUp.result.Ok?
            && retry.result.Ok? && retry.result.value.status == Success
            && retry.state.accounts[1].balance == 0
  {
  }
}

=== FILE: store.dfy ===
/** The state the operations run against: the database tables as maps, the
    Redis idempotency keys as a set, and a history of pessimistic account
    locks in the order they were taken. */
module Store {
  import opened Errors
  import A = Accounts
  import L = LimitSettings
  import U = DailyUsage
  import F = Fees
  import opened Ledger

  /** The three clock readings the operations take: LocalDate.now(),
      LocalTime.now() and LocalDateTime.now(). */
  datatype Clock = Clock(today: U.Date, timeOfDay: F.MinuteOfDay, instant: A.Timestamp)

  datatype State = State(
    accounts: map<A.AccountId, A.Account>,
    settings: map<A.AccountId, L.AccountLimitSetting>,
    usage: map<U.UsageKey, U.AccountDailyLimitUsage>,
    records: map<string, Transaction>,
    guard: set<string>,
    lockTrace: seq<A.AccountId>,
    nextAccountId: A.AccountId)

  /** What an operation returns, and the state it leaves behind. */
  datatype Step<T> = Step(result: Result<T>, state: State)

  /** TransactionRedisRepository.isLocked: a set-if-absent on the key, which
      reports true exactly when the key was already set. The key is set
      afterwards either way. */
  function IsLocked(s: State, key: string): (r: (bool, State))
  {
    (key in s.guard, s.(guard := s.guard + {key}))
  }

  /** The guard admits each key once: right after any call on a key, the
      next call on it reports the key as taken and changes nothing. */
  lemma GuardAdmitsOnce(s: State, key: string)
    ensures !IsLocked(s, key).0 <==> key !in s.guard
    ensures IsLocked(IsLocked(s, key).1, key).0
    ensures IsLocked(IsLocked(s, key).1, key).1 == IsLocked(s, key).1
    ensures IsLocked(s, key).1.guard - s.guard <= {key}
  {
  }

  /** Redis dropping a key once its TTL has run out (`isLocked` is called
      with one second). Afterwards the guard admits the key again, and the
      tables are untouched. */
  function Expire(s: State, key: string): (t: State)
    ensures !IsLocked(t, key).0
    ensures SameData(t, s) && t.lockTrace == s.lockTrace
    ensures t.guard + {key} == s.guard + {key}
  {
    s.(guard := s.guard - {key})
  }

  /** findLockedByAccountId: a locking read of one account row. A lock is
      taken, and recorded, only when the row exists. */
  function FindLocked(s: State, id: A.AccountId): (r: (Option<A.Account>, State))
    ensures id in s.accounts ==> r.0 == Some(s.accounts[id]) && r.1.lockTrace == s.lockTrace + [id]
    ensures id !in s.accounts ==> r.0 == None && r.1.lockTrace == s.lockTrace
    ensures r.1 == s.(lockTrace := r.1.lockTrace)
  {
    if id in s.accounts then (Some(s.accounts[id]), s.(lockTrace := s.lockTrace + [id]))
    else (None, s)
  }

  /** `findByTransactionId(id).orElse(pending)`. */
  function Replay(records: map<string, Transaction>, id: string, pending: Transaction): Transaction {
    if id in records then records[id] else pending
  }

  /** Everything the database holds is the same in both states. */
  predicate SameData(s: State, t: State) {
    && s.accounts == t.accounts
    && s.settings == t.settings
    && s.usage == t.usage
    && s.records == t.records
    && s.nextAccountId == t.nextAccountId
  }

  /** Rollback of an @Transactional method that threw: the database returns
      to its state at entry, but the Redis key set since entry stays set and
      the locks that were taken stay in the history. */
  function Rollback<T>(before: State, current: State, failure: Failure): (r: Step<T>)
    ensures r.result == Err(failure) && SameData(r.state, before)
    ensures r.state.guard == current.guard && r.state.lockTrace == current.lockTrace
  {
    Step(Err(failure), before.(guard := current.guard, lockTrace := current.lockTrace))
  }

  /** A request arriving for the first time: its key is not in Redis and no
      ledger row carries its id. */
  predicate FirstArrival(s: State, requestId: string) {
    requestId !in s.guard && requestId !in s.records
  }

  function WithdrawUsedToday(s: State, id: A.AccountId, day: U.Date): int {
    if (id, day) in s.usage then s.usage[(id, day)].withdrawUsed else 0
  }

  function TransferUsedToday(s: State, id: A.AccountId, day: U.Date): int {
    if (id, day) in s.usage then s.usage[(id, day)].transferUsed else 0
  }

  /** Every element is smaller than the next. */
  predicate StrictlyAscending(ids: seq<A.AccountId>) {
    forall i :: 0 < i < |ids| ==> ids[i - 1] < ids[i]
  }

  /** The lock history of `t` extends that of `s` by locks taken in
      ascending id order. */
  predicate LocksAscendFrom(s: State, t: State) {
    && |s.lockTrace| <= |t.lockTrace|
    && t.lockTrace[..|s.lockTrace|] == s.lockTrace
    && StrictlyAscending(t.lockTrace[|s.lockTrace|..])
  }

  /** Well-formedness of the tables:
      - each account, setting and usage row sits under its own key, so
        (accountId, limitDate) and transactionId are unique;
      - account and limit-setting rows carry ids handed out below the
        identity counter, and
        balances and usage counters are non-negative;
      - every stored ledger row is a completed one whose request id has been
        set in Redis. */
  ghost predicate Inv(s: State) {
    && s.nextAccountId > 0
    && (forall id :: id in s.accounts ==>
          s.accounts[id].accountId == id && 0 < id < s.nextAccountId && s.accounts[id].balance >= 0)
    && (forall id :: id in s.settings ==> s.settings[id].accountId == id && 0 < id < s.nextAccountId)
    && U.KeyedByDay(s.usage)
    && (forall k :: k in s.usage ==> s.usage[k].withdrawUsed >= 0 && s.usage[k].transferUsed >= 0)
    && (forall id :: id in s.records ==> s.records[id].requestId == id && s.records[id].status == Success)
    && s.records.Keys <= s.guard
  }

  /** Under the invariant a request whose key is not in Redis has no ledger
      row either, so the unique-key failure of a first save cannot occur. */
  lemma UnlockedKeyHasNoRecord(s: State, requestId: string)
    requires Inv(s) && requestId !in s.guard
    ensures FirstArrival(s, requestId)
  {
  }

  /** A rollback preserves the invariant when only the guard grew. */
  lemma RollbackKeepsInv<T>(before: State, current: State, failure: Failure)
    requires Inv(before) && before.guard <= current.guard
    ensures Inv(Rollback<T>(before, current, failure).state)
  {
  }
}

=== FILE: transfer_use_case.dfy ===
/** TransferUseCase.execute (account/usecase/TransferUseCase.java) as one
    @Transactional step over the store. The code as written computes the
    debited and credited accounts and then saves the unchanged locked reads;
    `saveBalances` switches to the evidently intended behaviour of saving
    the computed accounts. */
module TransferUseCase {
  import opened Errors
  import A = Accounts
  import U = DailyUsage
  import F = Fees
  import opened Ledger
  import AT = AccountTransactions
  import T = Transactions
  import opened Store
  import L = LimitSettings

  function Min(a: A.AccountId, b: A.AccountId): A.AccountId { if a <= b then a else b }
  function Max(a: A.AccountId, b: A.AccountId): A.AccountId { if a <= b then b else a }

  /** The fee the finder computes for this transfer at this time of day. */
  function FeeFor(calculators: seq<F.FeeCalculator>, amount: int, clock: Clock): (r: Result<F.FeeResponse>)
    ensures r.Err? ==> r.failure == Core(CalculatorNotFound)
  {
    var request := F.FeeRequest(amount, clock.timeOfDay);
    F.CalculateSpec(calculators, request, clock.timeOfDay);
    F.Calculate(calculators, request, clock.timeOfDay)
  }

  /** The inclusive daily transfer cap; the fee is not counted against it. */
  predicate WithinDailyTransferLimit(s: State, from: A.AccountId, amount: int, day: U.Date)
    requires from in s.settings
  {
    TransferUsedToday(s, from, day) + amount <= s.settings[from].dailyTransferLimit
  }

  /** After the cap and the fee: the source covers amount plus fee and the
      amount itself is positive (the two aggregate calls' checks). */
  predicate Covers(s: State, from: A.AccountId, amount: int, fee: int)
    requires from in s.accounts
  {
    0 < amount + fee <= s.accounts[from].balance && amount > 0
  }

  /** Everything a first arrival needs in order to succeed: both accounts and
      the source's setting exist, the cap holds, a fee policy is found, and
      the source covers amount plus fee. */
  predicate CanTransfer(s: State, from: A.AccountId, to: A.AccountId, amount: int,
                        calculators: seq<F.FeeCalculator>, clock: Clock) {
    && from in s.settings && from in s.accounts && to in s.accounts
    && WithinDailyTransferLimit(s, from, amount, clock.today)
    && FeeFor(calculators, amount, clock).Ok?
    && Covers(s, from, amount, FeeFor(calculators, amount, clock).value.feeAmount)
  }

  /** What lines 66-80 compute when none of their checks fails: the fee
      response and the debited and credited accounts. */
  datatype Movement = Movement(fee: F.FeeResponse, debited: A.Account, credited: A.Account)

  /** The checks between the locked reads and the saves (lines 66-80), in
      the code's order: the daily cap on the source's usage row, the fee
      finder, then the aggregate's withdraw of amount plus fee and deposit of
      the amount. The code's choice of fromAccount and toAccount among the
      two locked reads (lines 63-64) is the lookup `locked.accounts[from]`
      and `[to]`, since FindLocked returns the stored row itself. */
  function Checks(locked: State, from: A.AccountId, to: A.AccountId, amount: int,
                  calculators: seq<F.FeeCalculator>, clock: Clock): (r: Result<Movement>)
    requires from in locked.settings && from in locked.accounts && to in locked.accounts
    ensures var fee := FeeFor(calculators, amount, clock);
            && (!WithinDailyTransferLimit(locked, from, amount, clock.today) ==>
                  r == Err(Core(ExceedDailyTransferLimit)))
            && (WithinDailyTransferLimit(locked, from, amount, clock.today) && fee.Err? ==>
                  r == Err(Core(CalculatorNotFound)))
            && (WithinDailyTransferLimit(locked, from, amount, clock.today) && fee.Ok?
                && (amount + fee.value.feeAmount <= 0
                    || (amount <= 0 && amount + fee.value.feeAmount <= locked.accounts[from].balance)) ==>
                  r == Err(Core(InvalidRequest)))
            && (WithinDailyTransferLimit(locked, from, amount, clock.today) && fee.Ok?
                && 0 < amount + fee.value.feeAmount && amount + fee.value.feeAmount > locked.accounts[from].balance ==>
                  r == Err(Core(InsufficientBalance)))
    ensures r.Ok? <==> CanTransfer(locked, from, to, amount, calculators, clock)
    ensures r.Ok? ==>
              && FeeFor(calculators, amount, clock) == Ok(r.value.fee)
              && r.value.debited.balance == locked.accounts[from].balance - amount - r.value.fee.feeAmount
              && r.value.credited.balance == locked.accounts[to].balance + amount
              && A.SameIdentity(r.value.debited, locked.accounts[from])
              && A.SameIdentity(r.value.credited, locked.accounts[to])
              && r.value.debited.balance >= 0
  {
    var (row, _) := U.GetOrCreate(locked.usage, from, clock.today);
    if row.transferUsed + amount > locked.settings[from].dailyTransferLimit then
      Err(Core(ExceedDailyTransferLimit))
    else
      match FeeFor(calculators, amount, clock)
      case Err(f) => Err(f)
      case Ok(feeResponse) =>
        match A.Withdraw(locked.accounts[from], amount + feeResponse.feeAmount, clock.instant)
        case Err(f) => Err(f)
        case Ok(debited) =>
          match A.Deposit(locked.accounts[to], amount, clock.instant)
          case Err(f) => Err(f)
          case Ok(credited) => Ok(Movement(feeResponse, debited, credited))
  }

  /** The checks read only the tables, not the Redis keys or the lock
      history. */
  lemma ChecksSeeOnlyData(s: State, t: State, from: A.AccountId, to: A.AccountId, amount: int,
                          calculators: seq<F.FeeCalculator>, clock: Clock)
    requires SameData(s, t)
    requires from in s.settings && from in s.accounts && to in s.accounts
    ensures Checks(s, from, to, amount, calculators, clock) == Checks(t, from, to, amount, calculators, clock)
    ensures CanTransfer(s, from, to, amount, calculators, clock) == CanTransfer(t, from, to, amount, calculators, clock)
  {
  }

  /** The part of execute that runs once both rows are locked (lines 63-88),
      against `locked`, which differs from the entry state `before` only in
      Redis keys and lock history. A failed check rolls the data back; a
      passed one saves the usage row, the accounts and the completed row. */
  function Settle(before: State, locked: State, from: A.AccountId, to: A.AccountId, amount: int,
                  requestId: string, calculators: seq<F.FeeCalculator>, clock: Clock,
                  saveBalances: bool): (r: Step<Transaction>)
    requires SameData(locked, before) && from != to
    requires from in locked.settings && from in locked.accounts && to in locked.accounts
    ensures r.state.guard == locked.guard && r.state.lockTrace == locked.lockTrace
    ensures r.result.Err? ==> SameData(r.state, before)
    ensures r.result.Err? ==> Checks(before, from, to, amount, calculators, clock) == Err(r.result.failure)
    ensures r.result.Ok? <==> Checks(before, from, to, amount, calculators, clock).Ok?
    ensures r.state.settings == before.settings && r.state.nextAccountId == before.nextAccountId
    ensures r.result.Ok? ==>
              var key := (from, clock.today);
              && key in r.state.usage
              && r.state.usage == before.usage[key := r.state.usage[key]]
              && r.state.usage[key].transferUsed == TransferUsedToday(before, from, clock.today) + amount
              && r.state.usage[key].withdrawUsed == WithdrawUsedToday(before, from, clock.today)
    ensures r.result.Ok? ==>
              var m := Checks(before, from, to, amount, calculators, clock).value;
              && r.state.records == before.records[requestId := r.result.value]
              && Completes(AT.TransferPending(from, to, requestId, amount), r.result.value)
              && r.result.value.fee == m.fee.feeAmount
              && r.result.value.feePolicyType == Some(m.fee.policyType)
              && r.result.value.feeRatePercent == Some(m.fee.ratePercent)
              && (!saveBalances ==>
                    r.state.accounts == before.accounts
                    && r.result.value.balanceAfter == before.accounts[from].balance)
              && (saveBalances ==>
                    r.state.accounts == before.accounts[from := m.debited][to := m.credited]
                    && r.result.value.balanceAfter == m.debited.balance)
  {
    ChecksSeeOnlyData(locked, before, from, to, amount, calculators, clock);
    match Checks(locked, from, to, amount, calculators, clock)
    case Err(f) => Rollback(before, locked, f)
    case Ok(m) =>
      var pending := AT.TransferPending(from, to, requestId, amount);
      var (row, table) := U.GetOrCreate(locked.usage, from, clock.today);
      var row' := U.AddTransferUsed(row, amount);
      var saved := if saveBalances then locked.accounts[from := m.debited][to := m.credited] else locked.accounts;
      var done := T.SuccessWithFee(pending, saved[from].balance, m.fee.feeAmount, m.fee);
      Step(Ok(done), locked.(accounts := saved,
                             usage := table[(from, clock.today) := row'],
                             records := locked.records[requestId := done]))
  }

  /** Settling keeps the table invariant once the request's key is set. */
  lemma SettleKeepsInv(before: State, locked: State, from: A.AccountId, to: A.AccountId, amount: int,
                       requestId: string, calculators: seq<F.FeeCalculator>, clock: Clock, saveBalances: bool)
    requires SameData(locked, before) && from != to
    requires from in locked.settings && from in locked.accounts && to in locked.accounts
    ensures Inv(before) && requestId in locked.guard && before.guard <= locked.guard ==>
              Inv(Settle(before, locked, from, to, amount, requestId, calculators, clock, saveBalances).state)
  {
  }

  /** execute(fromAccountId, toAccountId, amount, transactionId). With
      `saveBalances` false this is the code as written; with it true the
      debited and credited accounts are the ones saved. */
  function Execute(s: State, from: A.AccountId, to: A.AccountId, amount: int, requestId: string,
                   calculators: seq<F.FeeCalculator>, clock: Clock, saveBalances: bool): (r: Step<Transaction>)
    // A self-transfer is refused before Redis or the database is touched.
    ensures from == to ==> r == Step(Err(Core(SameAccountTransfer)), s)
    ensures from != to && requestId in s.guard ==>
              r == Step(Ok(Replay(s.records, requestId, AT.TransferPending(from, to, requestId, amount))), s)
    ensures from != to ==> r.state.guard == s.guard + {requestId}
    ensures from != to && requestId !in s.guard && requestId in s.records ==> r.result == Err(DuplicateKey)
    ensures r.result.Err? ==> SameData(r.state, s)
    ensures r.state.settings == s.settings && r.state.nextAccountId == s.nextAccountId
    // Locks are only ever taken in ascending id order.
    ensures LocksAscendFrom(s, r.state)
    ensures Inv(s) ==> Inv(r.state)
    ensures from != to && FirstArrival(s, requestId) ==>
              && (from !in s.settings ==>
                    r.result == Err(Core(AccountLimitSettingNotFound)) && r.state.lockTrace == s.lockTrace)
              && (from in s.settings && (from !in s.accounts || to !in s.accounts) ==>
                    r.result == Err(NoSuchElement))
              && (from in s.settings && from in s.accounts && to in s.accounts ==>
                    && r.state.lockTrace == s.lockTrace + [Min(from, to), Max(from, to)]
                    && (r.result.Err? ==> Checks(s, from, to, amount, calculators, clock) == Err(r.result.failure)))
    ensures from != to && requestId !in s.guard ==>
              (r.result.Ok? <==> FirstArrival(s, requestId) && CanTransfer(s, from, to, amount, calculators, clock))
    ensures from != to && requestId !in s.guard && r.result.Ok? ==>
              var key := (from, clock.today);
              var m := Checks(s, from, to, amount, calculators, clock).value;
              && key in r.state.usage
              && r.state.usage == s.usage[key := r.state.usage[key]]
              && r.state.usage[key].transferUsed == TransferUsedToday(s, from, clock.today) + amount
              && r.state.usage[key].withdrawUsed == WithdrawUsedToday(s, from, clock.today)
              && r.state.records == s.records[requestId := r.result.value]
              && Completes(AT.TransferPending(from, to, requestId, amount), r.result.value)
              && r.result.value.fee == m.fee.feeAmount
              && r.result.value.feePolicyType == Some(m.fee.policyType)
              && r.result.value.feeRatePercent == Some(m.fee.ratePercent)
              && (!saveBalances ==>
                    r.state.accounts == s.accounts && r.result.value.balanceAfter == s.accounts[from].balance)
              && (saveBalances ==>
                    r.state.accounts == s.accounts[from := m.debited][to := m.credited]
                    && r.result.value.balanceAfter == m.debited.balance)
  {
    if from == to then
      Step(Err(Core(SameAccountTransfer)), s)
    else
      var pending := AT.TransferPending(from, to, requestId, amount);
      var (locked, s1) := IsLocked(s, requestId);
      if locked then
        Step(Ok(Replay(s.records, requestId, pending)), s1)
      else if requestId in s1.records then
        Rollback(s, s1, DuplicateKey)
      else if from !in s1.settings then
        Rollback(s, s1, Core(AccountLimitSettingNotFound))
      else
        var (first, s2) := FindLocked(s1, Min(from, to));
        if first.None? then
          Rollback(s, s2, NoSuchElement)
        else
          var (second, s3) := FindLocked(s2, Max(from, to));
          if second.None? then
            Rollback(s, s3, NoSuchElement)
          else
            SettleKeepsInv(s, s3, from, to, amount, requestId, calculators, clock, saveBalances);
            Settle(s, s3, from, to, amount, requestId, calculators, clock, saveBalances)
  }

  /** With the computed accounts saved, a successful transfer debits the
      source by amount plus fee, credits the target by the amount, leaves
      every other account alone, and so the pair's total falls by exactly
      the fee. */
  lemma SavedTransferConserves(s: State, from: A.AccountId, to: A.AccountId, amount: int, requestId: string,
                               calculators: seq<F.FeeCalculator>, clock: Clock)
    requires from != to && requestId !in s.guard
    ensures var r := Execute(s, from, to, amount, requestId, calculators, clock, true);
            r.result.Ok? ==>
              && from in s.accounts && to in s.accounts
              && r.state.accounts.Keys == s.accounts.Keys
              && r.state.accounts[from].balance == s.accounts[from].balance - amount - r.result.value.fee
              && r.state.accounts[to].balance == s.accounts[to].balance + amount
              && r.state.accounts[from].balance + r.state.accounts[to].balance
                 == s.accounts[from].balance + s.accounts[to].balance - r.result.value.fee
              && (forall id :: id in s.accounts && id != from && id != to ==> r.state.accounts[id] == s.accounts[id])
              && r.result.value.balanceAfter == r.state.accounts[from].balance
  {
  }

  /** Two accounts, the source holding 500000, with default limits. */
  function ExampleState(): (s: State)
    ensures Inv(s)
  {
    State(accounts := map[1 := A.Account(1, "1001", 500000, A.Active, 0, 0),
                          2 := A.Account(2, "1002", 0, A.Active, 0, 0)],
          settings := map[1 := L.DefaultOf(1)],
          usage := map[], records := map[], guard := {}, lockTrace := [], nextAccountId := 3)
  }

  /** The code as written: at noon, 100000 from account 1 to account 2 with
      the standard fee policies succeeds and records a fee of 1000, yet
      neither balance moves and the row reports 500000 as the source's
      balance after. */
  lemma AsWrittenMovesNoMoney()
    ensures var r := Execute(ExampleState(), 1, 2, 100000, "t-1",
                             [F.NightFeeCalculator, F.DefaultFeeCalculator], Clock(0, 720, 0), false);
            && r.result.Ok? && r.result.value.fee == 1000
            && r.state.accounts[1].balance == 500000 && r.state.accounts[2].balance == 0
            && r.result.value.balanceAfter == 500000
  {
    F.StandardRegistry(F.FeeRequest(100000, 720), 720);
    assert !F.IsNight(720);
  }

  /** The same request with the computed accounts saved: 101000 leaves
      account 1, 100000 reaches account 2. */
  lemma SavedMovesMoney()
    ensures var r := Execute(ExampleState(), 1, 2, 100000, "t-1",
                             [F.NightFeeCalculator, F.DefaultFeeCalculator], Clock(0, 720, 0), true);
            && r.result.Ok? && r.result.value.fee == 1000
            && r.state.accounts[1].balance == 399000 && r.state.accounts[2].balance == 100000
            && r.result.value.balanceAfter == 399000
  {
    F.StandardRegistry(F.FeeRequest(100000, 720), 720);
    assert !F.IsNight(720);
  }

  /** Transfers in opposite directions between the same two accounts take
      their locks in the same order, so neither can hold one lock while
      waiting for the other's. */
  lemma OppositeTransfersLockAlike(s: State, a: A.AccountId, b: A.AccountId, amount: int, id1: string, id2: string,
                                   calculators: seq<F.FeeCalculator>, clock: Clock, saveBalances: bool)
    requires a != b && a in s.accounts && b in s.accounts && a in s.settings && b in s.settings
    requires FirstArrival(s, id1) && FirstArrival(s, id2)
    ensures Execute(s, a, b, amount, id1, calculators, clock, saveBalances).state.lockTrace
            == Execute(s, b, a, amount, id2, calculators, clock, saveBalances).state.lockTrace
            == s.lockTrace + [Min(a, b), Max(a, b)]
  {
  }
}

=== FILE: withdraw_use_case.dfy ===
/** WithdrawUseCase.execute (account/usecase/WithdrawUseCase.java) as one
    @Transactional step over the store. */
module WithdrawUseCase {
  import opened Errors
  import A = Accounts
  import U = DailyUsage
  import opened Ledger
  import AT = AccountTransactions
  import opened Store

  /** The daily cap check: inclusive, so reaching the cap exactly passes. */
  predicate WithinDailyWithdrawLimit(s: State, accountId: A.AccountId, amount: int, day: U.Date)
    requires accountId in s.settings
  {
    WithdrawUsedToday(s, accountId, day) + amount <= s.settings[accountId].dailyWithdrawLimit
  }

  /** Everything a first arrival needs in order to succeed. */
  predicate CanWithdraw(s: State, accountId: A.AccountId, amount: int, day: U.Date) {
    && accountId in s.settings
    && accountId in s.accounts
    && WithinDailyWithdrawLimit(s, accountId, amount, day)
    && 0 < amount <= s.accounts[accountId].balance
  }

  function Execute(s: State, accountId: A.AccountId, amount: int, requestId: string, clock: Clock)
    : (r: Step<Transaction>)
    // Idempotent replay.
    ensures requestId in s.guard ==>
              r == Step(Ok(Replay(s.records, requestId, AT.WithdrawPending(accountId, requestId, amount))), s)
    ensures r.state.guard == s.guard + {requestId}
    ensures r.result.Err? ==> SameData(r.state, s)
    // Error precedence on a first arrival: setting, account, daily cap, then the aggregate's checks.
    ensures FirstArrival(s, requestId) && accountId !in s.settings ==>
              r.result == Err(Core(AccountLimitSettingNotFound)) && r.state.lockTrace == s.lockTrace
    ensures FirstArrival(s, requestId) && accountId in s.settings && accountId !in s.accounts ==>
              r.result == Err(Core(AccountNotFound))
    ensures FirstArrival(s, requestId) && accountId in s.settings && accountId in s.accounts
            && !WithinDailyWithdrawLimit(s, accountId, amount, clock.today) ==>
              r.result == Err(Core(ExceedDailyWithdrawLimit))
    ensures FirstArrival(s, requestId) && accountId in s.settings && accountId in s.accounts
            && WithinDailyWithdrawLimit(s, accountId, amount, clock.today) ==>
              && (amount <= 0 ==> r.result == Err(Core(InvalidRequest)))
              && (0 < amount && s.accounts[accountId].balance < amount ==> r.result == Err(Core(InsufficientBalance)))
    ensures requestId !in s.guard && requestId in s.records ==> r.result == Err(DuplicateKey)
    ensures requestId !in s.guard ==>
              (r.result.Ok? <==> FirstArrival(s, requestId) && CanWithdraw(s, accountId, amount, clock.today))
    // Success: the balance, today's withdrawal counter and the ledger move together.
    ensures requestId !in s.guard && r.result.Ok? ==>
              var key := (accountId, clock.today);
              && accountId in r.state.accounts && key in r.state.usage
              && r.state.accounts == s.accounts[accountId := r.state.accounts[accountId]]
              && r.state.accounts[accountId].balance == s.accounts[accountId].balance - amount
              && A.SameIdentity(s.accounts[accountId], r.state.accounts[accountId])
              && r.state.usage == s.usage[key := r.state.usage[key]]
              && r.state.usage[key].withdrawUsed == WithdrawUsedToday(s, accountId, clock.today) + amount
              && r.state.usage[key].withdrawUsed <= s.settings[accountId].dailyWithdrawLimit
              && r.state.usage[key].transferUsed == TransferUsedToday(s, accountId, clock.today)
              && r.state.records == s.records[requestId := r.result.value]
              && Completes(AT.WithdrawPending(accountId, requestId, amount), r.result.value)
              && r.result.value.balanceAfter == r.state.accounts[accountId].balance
              && r.result.value.fee == 0
    ensures r.state.settings == s.settings && r.state.nextAccountId == s.nextAccountId
    ensures r.state.lockTrace ==
              s.lockTrace + (if FirstArrival(s, requestId) && accountId in s.settings && accountId in s.accounts
                             then [accountId] else [])
    ensures Inv(s) ==> Inv(r.state)
  {
    var pending := AT.WithdrawPending(accountId, requestId, amount);
    var (locked, s1) := IsLocked(s, requestId);
    if locked then
      Step(Ok(Replay(s.records, requestId, pending)), s1)
    else if requestId in s1.records then
      Rollback(s, s1, DuplicateKey)
    else if accountId !in s1.settings then
      Rollback(s, s1, Core(AccountLimitSettingNotFound))
    else
      var setting := s1.settings[accountId];
      var (found, s2) := FindLocked(s1, accountId);
      if found.None? then
        Rollback(s, s2, Core(AccountNotFound))
      else
        var (row, table) := U.GetOrCreate(s2.usage, accountId, clock.today);
        if row.withdrawUsed + amount > setting.dailyWithdrawLimit then
          Rollback(s, s2, Core(ExceedDailyWithdrawLimit))
        else
          var row' := U.AddWithdrawUsed(row, amount);
          match A.Withdraw(found.value, amount, clock.instant)
          case Err(f) => Rollback(s, s2, f)
          case Ok(updated) =>
            var done := AT.Success(pending, updated.balance, 0);
            Step(Ok(done), s2.(accounts := s2.accounts[accountId := updated],
                               usage := table[(accountId, clock.today) := row'],
                               records := s2.records[requestId := done]))
  }
}
